=== FILE: README.md ===
# Pastapes catalog core in Dafny

Pastapes is a browser catalog of home-recorded cassette tapes. Its data
layer, `getCassetteSides`, loads a SQLite catalog database (tapes, sides,
sessions, tracks, personnel, credits). It projects the relational rows into a
nested document: a list of cassette sides, each holding its sessions, each
session holding its personnel and its tracks, each track holding its own
credits. When the database cannot be loaded or yields no side, it serves a
bundled catalog of six sides instead.

The application shell as written does not call `getCassetteSides`. It
renders the bundled catalog directly (src/App.tsx:5, 35, 45). It also passes
the personnel page no list of sides (src/App.tsx:57-61). The model therefore
treats the data layer and the views separately. Each view takes the list of
sides it reads as a parameter, so it applies to the bundled catalog and to a
mapped database alike. The four views are:

- the browse grid, with an "only sides with audio" filter and per-card totals;
- a session panel, with duration and counter formatting and show/hide rules;
- a personnel page, which gathers every track a person plays on;
- a simulated audio player.

The model follows the source's own form:

- **Values are datatypes.** The document types are in `cassette.dfy`. The
  table rows are in `schema.dfy`. The sql.js result sets and the objects
  `toObjects` builds from them are in `queries.dfy`.
- **Each SQL statement is a function** that states its filter, join,
  `COALESCE` and `ORDER BY`. An `ORDER BY` is specified as "sorted by the key
  and a permutation of the selected rows". The sort itself is a stable
  insertion sort in `sorting.dfy`, so ties are left unspecified, as in SQL.
- **The mapping loop of `tryMapCassetteSides` is a set of methods.** There is
  one loop per statement that is stepped through, and each method is proved
  equal to a specification function of the tables (`projection.dfy`). The
  lemmas beside it state what the document contains.
- **The personnel page's aggregation and grouping are methods with loops.**
  They are proved against recursive specification functions, and the lemmas
  say which appearances and roles the page finds (`personnel_detail.dfy`).
- **The audio player is a class** whose methods update its fields
  (`audio_player.dfy`).
- **The bundled catalog** is a literal (`fallback.dfy`), with lemmas about
  its shape (`fallback_shape.dfy`).

A failure is modelled as data:

- A database that cannot be loaded is `None`.
- A database without the catalog tables is `tablesPresent == false`; every
  query against it throws. A database that has the tapes and sides tables
  but lacks another table, or a column that a prepared statement selects,
  makes `db.prepare` throw (src/lib/sqlite.ts:94-118). Its outcome is the
  same (no mapped sides, then the fallback), so such partial schemas are
  folded into this flag.
- A database without the optional `has_audio` column is
  `hasAudioColumn == false`; the richer side query throws on it.

Where the written specification and the code disagree, the model follows the
code:

- **A credit can name both a session and a track.** The schema only requires
  at least one of the two. Such a credit is listed on the track (the track
  statement filters on `track_id` alone) and never in the session's
  personnel: see `Projection.TrackCreditMember`.
- **`has_audio` is not declared on `CassetteSide`.** The type declaration
  lacks the field, but the projection writes it and the grid reads it. The
  model gives `CassetteSide` a `hasAudio: Option<bool>`, which is absent on
  the bundled sides.

## Model

| member | source | states |
|---|---|---|
| Queries.LastIndex | src/lib/sqlite.ts:40 | the position of the last occurrence of a column name, with no later occurrence after it |
| Queries.RowObject | src/lib/sqlite.ts:40 | `Object.fromEntries`: one property per column name; a column that is not repeated later holds its row value (a repeated name keeps its last value) |
| Queries.ToObjects | src/lib/sqlite.ts:37-41 | no result set gives no objects; otherwise one object per row of the first result set, keyed by its column names, each value taken by position |
| Queries.JoinTapesMembers | src/lib/sqlite.ts:62-63 | the inner join holds a side with a tape number exactly when the side is a row and some tape row has its `tape_id` and that number; a side without a tape drops out |
| Queries.SideKeyTotalPreorder | src/lib/sqlite.ts:64 | `ORDER BY tape_number, side_letter` (NULL first, text compared character by character) is a total preorder |
| Queries.SideRows | src/lib/sqlite.ts:62-64 | the joined side rows in query order: sorted by the key, and a permutation of the join with the same members |
| Queries.SideColumns | src/lib/sqlite.ts:48-61 | 13 distinct aliases with `has_audio`, 12 without it |
| Queries.SideColumnsAt | src/lib/sqlite.ts:48-61 | the position of every alias in the select list, `has_audio` just before the final `tape_number` |
| Queries.SideValuesAt | src/lib/sqlite.ts:48-61 | the value selected at each position; `has_audio` is `COALESCE(s.has_audio, 1)` |
| Queries.ExecSideQuery | src/lib/sqlite.ts:45-89 | the side query throws exactly on a database without the tables, or for the richer query without the column; it gives no result set exactly when no row matches, otherwise one result set whose rows are the joined sides in query order |
| Queries.SessionQuery | src/lib/sqlite.ts:94-96 | exactly the session rows of the side, sorted by id, a permutation of the filtered rows |
| Queries.CreditRole | src/lib/sqlite.ts:98 | the credit's role, else the person's primary instrument, else "" |
| Queries.CreditJoinMembers | src/lib/sqlite.ts:99-101 | the credit/personnel join yields exactly the rows built from a kept credit and a person whose id it names |
| Queries.OnePersonPerId | src/lib/sqlite.ts:100 | with distinct person ids, at most one person matches a credit's `personnel_id` |
| Queries.CreditJoinCount | src/lib/sqlite.ts:99-101 | with distinct person ids, the join has one row per kept credit whose person exists |
| Queries.NameOrdersPreorder | src/lib/sqlite.ts:102 | `ORDER BY p.name` is a total preorder on both credit row shapes |
| Queries.SessionPersonnelQuery | src/lib/sqlite.ts:97-103 | the session-level credits (session id given, track id NULL) joined to their persons, sorted by name, as a permutation of the join |
| Queries.TrackCreditQuery | src/lib/sqlite.ts:112-118 | every credit naming the track, whatever its session, joined to its person, sorted by name, as a permutation of the join |
| Queries.TrackKeyTotalPreorder | src/lib/sqlite.ts:110 | `ORDER BY sequence_order, id` (NULL first) is a total preorder |
| Queries.TrackQuery | src/lib/sqlite.ts:104-111 | exactly the track rows of the session, sorted by sequence then id, a permutation of the filtered rows |
| Projection.StringOr | src/lib/sqlite.ts:126-138 | `String(obj[key] ?? default)`: a missing or NULL property gives the default, a text property its text |
| Projection.NormalizeSideLetter | src/lib/sqlite.ts:122-123 | the letter is B exactly when the raw text is "B"; anything else, NULL included, is A |
| Projection.NonEmpty | src/lib/sqlite.ts:151-152 | `value || undefined`: an empty or NULL text becomes absent, any other text is kept |
| Projection.HasAudioOf | src/lib/sqlite.ts:129 | a row without the `has_audio` property has audio; otherwise it has audio exactly when the value is not 0 |
| Projection.ProjectTrack | src/lib/sqlite.ts:177-199 | a NULL sequence, counter or duration field becomes 0 and a NULL title ""; a NULL or empty artist, vocalist or original text line is dropped and any other is kept; the credit list is absent exactly when the track's credit query is empty, and otherwise is that query's result |
| Projection.ProjectTracks | src/lib/sqlite.ts:172-204 | one track per row of the track statement, in its order (sequence, then id): the i-th track is the projection of the i-th row |
| Projection.ProjectSession | src/lib/sqlite.ts:147-204 | the session code is kept as is (NULL and "" included); a NULL or empty date or location is dropped and any other is kept; the personnel are the session-level credit query's result, and its tracks are the projections of its track rows, in order |
| Projection.ProjectSessions | src/lib/sqlite.ts:144-209 | one session per row of the session statement, in its order (by id): the i-th session is the projection of the i-th row |
| Projection.ExpectedSide | src/lib/sqlite.ts:121-141 | the side a joined row stands for: letter B exactly for a raw "B", audio flag per the query that ran, the tape number of the join |
| Projection.SideResult | src/lib/sqlite.ts:44-89 | the side query that succeeds: none exactly when the tables are missing, otherwise the richer query when the column exists and the reduced one when it does not |
| Projection.SidesFromObjects | src/lib/sqlite.ts:120-212 | one side per result object, in row order |
| Projection.SideObjectLookup | src/lib/sqlite.ts:40 | every selected alias is a property of the row object and holds the value selected for it |
| Projection.ObjectHoldsKeys | src/lib/sqlite.ts:48-51 | the object's side id, side letter and filename properties hold the row's values |
| Projection.ObjectHoldsAlbum | src/lib/sqlite.ts:52-55 | the object's album, artist, genre and date properties hold the row's values |
| Projection.ObjectHoldsFormat | src/lib/sqlite.ts:56-59 | the object's audio type, Dolby, selector and catalog number properties hold the row's values |
| Projection.ObjectHoldsTail | src/lib/sqlite.ts:60-61 | the object's `has_audio` property is present exactly for the richer query and holds the coalesced value; its `tape_number` holds the joined tape's number |
| Projection.RowObjectHoldsSide | src/lib/sqlite.ts:37-61 | the object built from a selected row holds every selected value |
| Projection.SideFromHeldObject | src/lib/sqlite.ts:121-141 | reading any object that holds a row's values gives that row's expected side |
| Projection.SideObjectRoundTrip | src/lib/sqlite.ts:37-141 | reading the object of a selected row gives back exactly the side the typed row stands for |
| Projection.SideObjectsTyped | src/lib/sqlite.ts:37-61 | every object of a successful side query has an integer `side_id` and, when present, an integer `has_audio` |
| Projection.MappedSides | src/lib/sqlite.ts:33-220 | a database without the tables maps to no sides; every mapped side has a tape number and a filename |
| Projection.MappedSidesShape | src/lib/sqlite.ts:120-215 | the mapped sides are the expected sides of the joined rows, in query order, less those the sanity filter drops |
| Projection.MappedSidesMembers | src/lib/sqlite.ts:62-63 | a side is mapped exactly when it passes the sanity filter and is the expected side of some joined row |
| Projection.MappedSidesOrdered | src/lib/sqlite.ts:64 | mapped sides come in ascending tape-number order, compared as text, also after the filter |
| Projection.MappedSideFlags | src/lib/sqlite.ts:122-129 | each mapped side comes from a joined row: letter B exactly for a raw "B", and audio present, true exactly when the reduced query ran or the coalesced value is not 0 |
| Projection.ReducedQueryHasAudio | src/lib/sqlite.ts:67-89 | on a database without `has_audio`, every mapped side has audio |
| Projection.SideSessionsExactly | src/lib/sqlite.ts:144-209 | a side's sessions are exactly the projections of its session rows, one per row |
| Projection.SessionTracksExactly | src/lib/sqlite.ts:172-204 | a session's tracks are exactly the projections of its track rows, one per row |
| Projection.SessionPersonnelMember | src/lib/sqlite.ts:158-169 | an entry is in a session's personnel exactly when a session-level credit of the session and its person produce it |
| Projection.SessionPersonnelCount | src/lib/sqlite.ts:158-169 | with distinct person ids, one entry per session-level credit whose person exists |
| Projection.TrackCreditMember | src/lib/sqlite.ts:189-199 | a credit is listed on a track exactly when some credit naming the track and its person produce it, whatever the credit's session |
| Projection.TrackCreditCount | src/lib/sqlite.ts:189-199 | with distinct person ids, one listed credit per credit row naming the track whose person exists |
| Projection.TrackCreditsNonEmpty | src/lib/sqlite.ts:112-118 | the track credit query is non-empty exactly when some credit of an existing person names the track |
| Projection.TrackCreditsPresence | src/lib/sqlite.ts:199 | a track's credit list is present exactly when some credit of an existing person names it, and then it is shown |
| Projection.EveryCreditListed | create_db.php:123-143 | in a database that keeps the schema's constraints, a credit of an existing person is listed on its track when it names one, and otherwise has a session and is listed among that session's personnel |
| Projection.WellFormedPersonIds | create_db.php:111-113 | the personnel primary key gives every person a distinct id |
| Projection.CollectSessionPersonnel | src/lib/sqlite.ts:158-169 | stepping through the statement pushes exactly its rows, in order |
| Projection.CollectTrackCredits | src/lib/sqlite.ts:189-198 | stepping through the statement pushes exactly its rows, in order |
| Projection.ReadTrack | src/lib/sqlite.ts:175-199 | the track built in the loop, credits attached only when non-empty, is the projected track |
| Projection.CollectTracks | src/lib/sqlite.ts:172-204 | the loop yields the projection of each track row, in order |
| Projection.ReadSession | src/lib/sqlite.ts:147-169 | the session built empty and then filled is the projected session |
| Projection.CollectSessions | src/lib/sqlite.ts:144-209 | the loop yields the projection of each session row, in order |
| Projection.RunSideQuery | src/lib/sqlite.ts:44-89 | the richer query first and, when it throws, the reduced one; no result only when both throw, that is when the tables are missing |
| Projection.ReadSide | src/lib/sqlite.ts:120-211 | the side built from its object and then given its sessions is the side read from the object |
| Projection.ReadSides | src/lib/sqlite.ts:120-212 | the side loop yields one side per object, in order |
| Projection.TryMapCassetteSides | src/lib/sqlite.ts:33-220 | the mapping returns exactly the specified mapped sides |
| Projection.GetCassetteSides | src/lib/sqlite.ts:222-234 | the mapped sides when there are any, the fallback when loading fails or nothing maps; anything else is non-empty and filtered |
| Projection.QueryFailureFallsBack | src/lib/sqlite.ts:216-232 | a database whose queries throw makes the page get the fallback catalog |
| Projection.NamedSideKept | src/lib/sqlite.ts:215 | a side named after a non-empty tape number survives the sanity filter |
| Projection.ServedFrom | src/lib/sqlite.ts:222-234 | with a non-empty fallback of such sides, the page always gets a non-empty list of filtered sides |
| FallbackShape.Tape013AWellShaped | src/data/cassettes.ts:4-87 | side 013A is named after its tape, every session has personnel with source keys and shows them, every track's seconds are under 60 with no own credits, and tracks ascend in sequence and counter |
| FallbackShape.Tape013BWellShaped | src/data/cassettes.ts:88-142 | as for 013A, for side 013B |
| FallbackShape.Tape027AWellShaped | src/data/cassettes.ts:143-213 | as for 013A, for side 027A |
| FallbackShape.Tape042AWellShaped | src/data/cassettes.ts:214-259 | as for 013A, for side 042A |
| FallbackShape.Tape065AWellShaped | src/data/cassettes.ts:260-339 | as for 013A, for side 065A |
| FallbackShape.Tape089BWellShaped | src/data/cassettes.ts:340-390 | as for 013A, for side 089B |
| FallbackShape.CatalogServable | src/data/cassettes.ts:3-391 | the bundled catalog has six sides, each with a tape number and named after it |
| FallbackShape.CatalogOrdered | src/data/cassettes.ts:3-391 | the bundled catalog is ordered as the side query orders rows, and no two sides share a filename |
| SessionDisplay.FormatDuration | src/components/SessionDisplay.tsx:12-14 | minutes, a colon and the seconds, with a leading zero only below 10 seconds and no truncation |
| SessionDisplay.FormatDurationRoundTrip | src/components/SessionDisplay.tsx:12-14 | the duration text reads back as exactly the two fields, also for 60 seconds or more |
| SessionDisplay.FormatCounter | src/components/SessionDisplay.tsx:16-18 | exactly three characters or the counter's own length if longer: the counter's text with zeros in front |
| SessionDisplay.FormatCounterRoundTrip | src/components/SessionDisplay.tsx:16-18 | a non-negative counter's text is all digits and reads back as the counter; three or more digits are unchanged, two digits get one zero and one digit two zeros |
| SessionDisplay.FormatCounterNegative | src/components/SessionDisplay.tsx:16-18 | a negative counter is padded sign and all: from -9 to -1 the zero goes before the minus sign ("0-5"), and from -10 down the text is unchanged |
| SessionDisplay.Shown | src/components/SessionDisplay.tsx:38-49 | an optional line appears exactly when its value is truthy, and then shows that value |
| SessionDisplay.RenderTracks | src/components/SessionDisplay.tsx:86-136 | one row per track, in order, each the rendering of its track |
| SessionDisplay.RenderSession | src/components/SessionDisplay.tsx:22-137 | the panel has one track row per track |
| SessionDisplay.HeaderShownIffInfo | src/components/SessionDisplay.tsx:20-49 | the header appears exactly when the code, the date or the location is truthy; inside it, the date and location appear exactly when truthy |
| SessionDisplay.PersonnelShownIff | src/components/SessionDisplay.tsx:54-80 | the personnel list is shown exactly when there is session info and personnel, and then lists all personnel in order; personnel without session info are hidden |
| SessionDisplay.HeadingCases | src/components/SessionDisplay.tsx:28-35 | in a shown header, the heading is the code when it is truthy; without one the heading is absent exactly when the side has more than one session, and a "Recording Session" heading only stands in on a one-session side |
| SessionDisplay.TrackRowReadsBack | src/components/SessionDisplay.tsx:104-108 | a track row's duration text parses to the track's minutes and seconds, and a non-negative counter's text reads as the counter |
| SessionDisplay.TrackRowsReadBack | src/components/SessionDisplay.tsx:86-109 | every row of the panel reads back to its own track |
| SessionDisplay.TrackCreditsShownIff | src/components/SessionDisplay.tsx:124-131 | credit lines appear exactly when the credit list is present and non-empty, and then list every credit in order |
| PersonnelDetail.Entries | src/components/PersonnelDetail.tsx:27 | a session's entries for the person are exactly its personnel with that name |
| PersonnelDetail.VisitSession | src/components/PersonnelDetail.tsx:26-44 | a session adds its roles and one appearance per track when it has an entry for the person, and nothing otherwise |
| PersonnelDetail.VisitSide | src/components/PersonnelDetail.tsx:25-45 | a side adds the appearances and roles of its sessions in order |
| PersonnelDetail.Aggregate | src/components/PersonnelDetail.tsx:20-46 | the nested loops build exactly the specified appearances and role set |
| PersonnelDetail.RolesOfEntries | src/components/PersonnelDetail.tsx:30-32 | the roles added from one session are exactly the roles of the person's entries there |
| PersonnelDetail.SessionMembers | src/components/PersonnelDetail.tsx:29-43 | an appearance comes from a session exactly when it names that session and one of its tracks, and the session has an entry for the person |
| PersonnelDetail.SideMembers | src/components/PersonnelDetail.tsx:25-45 | the same for the first sessions of a side |
| PersonnelDetail.AppearancesExactly | src/components/PersonnelDetail.tsx:20-46 | an appearance is produced exactly for each track of each session, on a listed side, whose personnel names the person, whatever the track's own credits |
| PersonnelDetail.AppearanceValid | src/components/PersonnelDetail.tsx:35-42 | every appearance names a real track of a listed side, and its roles and source keys are aligned copies of the person's entries there |
| PersonnelDetail.AppearanceHasEntry | src/components/PersonnelDetail.tsx:27-29 | every appearance comes from a personnel entry with the person's name |
| PersonnelDetail.NoEntryNoAppearance | src/components/PersonnelDetail.tsx:27-29 | a person in no session's personnel, even if named in track credits, has no appearances |
| PersonnelDetail.SideOrdered | src/components/PersonnelDetail.tsx:25-35 | within a side, appearances run session by session and track by track |
| PersonnelDetail.SideRolesExactly | src/components/PersonnelDetail.tsx:32 | a side's roles are the roles of the person's entries in its sessions |
| PersonnelDetail.AllRolesExactly | src/components/PersonnelDetail.tsx:22-32 | the role set holds exactly the roles of the person's session entries, also for sessions without tracks |
| PersonnelDetail.StatsBounded | src/components/PersonnelDetail.tsx:52-54 | neither the distinct side count nor the distinct album count exceeds the track count, and each is 0 exactly when there are no appearances |
| PersonnelDetail.InAlbumSnoc | src/components/PersonnelDetail.tsx:57-64 | one more appearance extends exactly its own album's group |
| PersonnelDetail.GroupByAlbum | src/components/PersonnelDetail.tsx:57-64 | the groups are keyed by exactly the albums that occur, and each holds that album's appearances in their original order |
| PersonnelDetail.InAlbumAbsent | src/components/PersonnelDetail.tsx:59-61 | an album with no appearance has an empty group |
| PersonnelDetail.GroupsPartition | src/components/PersonnelDetail.tsx:57-64 | every appearance lies in its own album's group and in no other, and every group is non-empty, so its first appearance heads the card |
| CassetteGrid.VisibleSides | src/components/CassetteGrid.tsx:13-15 | every side with the checkbox off; with it on, exactly the sides not known to lack audio |
| CassetteGrid.VisibleKeepsOrder | src/components/CassetteGrid.tsx:13-15 | the filter works side by side, so the cards keep their relative order |
| CassetteGrid.UnknownAudioStaysVisible | src/components/CassetteGrid.tsx:14 | sides whose audio flag is true or absent all stay visible with the filter on |
| CassetteGrid.SideSeconds | src/components/CassetteGrid.tsx:17-22 | the nested loop adds up `min * 60 + sec` over every track of every session (the player's `durationToSeconds`, src/components/AudioPlayer.tsx:18-26, is the same loop) |
| CassetteGrid.TrackCountIsLength | src/components/CassetteGrid.tsx:28-30 | the `reduce` over sessions counts the tracks of the side |
| CassetteGrid.GetTotalTracks | src/components/CassetteGrid.tsx:28-30 | the card's track count is the number of tracks on the side |
| CassetteGrid.FormatClock | src/components/CassetteGrid.tsx:23-25 | the exact text: whole minutes, a colon and the remaining seconds padded to two digits (65 shows as "1:05"); it reads back as minutes and seconds with seconds under 60 that denote the total, also when a track's own seconds are 60 or more (the player's `formatTime`, src/components/AudioPlayer.tsx:54-58, gives the same text on whole seconds) |
| CassetteGrid.GetTotalDuration | src/components/CassetteGrid.tsx:16-26 | the card's duration line is the clock text of the side's total seconds |
| CassetteGrid.TapeTypeColor | src/components/CassetteGrid.tsx:32-38 | purple exactly for a selector that lower-cases to "metal"; amber for everything else, "chrome" included |
| CassetteGrid.IconGradient | src/components/CassetteGrid.tsx:71-75 | a B side's icon is red; the icon is purple exactly for an A side on metal tape |
| CassetteGrid.MetalSelector | src/components/CassetteGrid.tsx:33-34 | the capitalised "Metal" selector of the bundled catalog is lower-cased first, so it gets the metal gradient |
| AudioPlayer.Player.constructor | src/components/AudioPlayer.tsx:10-14 | paused at 0 of 0, volume 0.7, not muted, position on the bar |
| AudioPlayer.Player.SideChanged | src/components/AudioPlayer.tsx:28-33 | the duration becomes the side's total seconds, the position 0 and playback paused; volume and mute stay |
| AudioPlayer.Player.TogglePlay | src/components/AudioPlayer.tsx:35-37 | negates the playing flag and changes nothing else |
| AudioPlayer.Player.ToggleMute | src/components/AudioPlayer.tsx:39-41 | negates the mute flag and changes nothing else |
| AudioPlayer.Player.Seek | src/components/AudioPlayer.tsx:43-46 | sets the position unclamped; the position stays on the bar exactly when the value is within it |
| AudioPlayer.Player.VolumeChange | src/components/AudioPlayer.tsx:48-52 | sets the volume; a positive volume unmutes, and 0 leaves the mute flag as it was |
| AudioPlayer.Player.SkipBackward | src/components/AudioPlayer.tsx:60-62 | back ten seconds but never below 0, keeping the position on the bar |
| AudioPlayer.Player.SkipForward | src/components/AudioPlayer.tsx:64-66 | forward ten seconds but never past the duration, keeping the position on the bar |
| AudioPlayer.Player.TickAsWritten | src/components/AudioPlayer.tsx:69-83 | the interval only runs while playing short of the end, so a tick adds one second there and never pauses |
| AudioPlayer.EndOfSideAsWritten | src/components/AudioPlayer.tsx:69-83 | a one-second side played to its end is left playing at 1 of 1 |
| AudioPlayer.Player.Tick | src/components/AudioPlayer.tsx:72-79 | a tick while playing adds a second, and at or past the end it pauses at the end; paused, nothing moves |
| AudioPlayer.Player.PlayToEnd | src/components/AudioPlayer.tsx:69-83 | left to tick, playback reaches the end and stops after `duration - t + 1` ticks |

## Left out

- The sql.js engine, its WASM and fetch loading, and the memoised database
  promise (src/lib/sqlite.ts:1-31) are I/O and a foreign library. A database
  that cannot be loaded is the `None` passed to
  `Projection.GetCassetteSides`, and console logging is dropped.
- SQLite's dynamic typing is reduced to the declared column types. Values
  are NULL, integers or text, and `Number(...)`/`String(...)` on them are
  read as the declared type (`Projection.SideObjectTyped`).
- Query column names are modelled as an enumeration per statement instead of
  as text.
- The prepared statements' rows are passed to the collecting methods as a
  sequence. Binding, stepping and resetting are not modelled.
- The bundled catalog is an argument of `Projection.GetCassetteSides`, not a
  module-level import. `FallbackShape.CatalogServable` shows that the
  bundled list meets `Projection.ServedFrom`'s requirements.
- The shape of the whole catalog is proved side by side
  (`FallbackShape.Tape013AWellShaped` and its siblings), not as one lemma
  over the list.
- The raw `original_text` lines of the bundled tracks are kept as data. No
  property is stated about their wording.
- Side ties in the side query's `ORDER BY` (the same tape number and side
  letter) have no id tie-break, so their relative order is left
  unspecified.
- `create_db.php` is a one-time schema migration. It is not modelled beyond
  its table constraints, `Schema.WellFormed`. `Projection.WellFormedPersonIds`
  derives from them the distinct person ids that the counting lemmas assume.
  `Projection.EveryCreditListed` uses the credit check to show that no
  credit goes unlisted.
- Durations are whole numbers of seconds (`nat`), and the player's clock is
  an integer.
  - Fractional seek values from `parseFloat` and `Math.floor` on them are
    not modelled.
  - The progress-bar percentages and the volume slider's floating-point
    values are not modelled; the volume is an exact `real`.
- `setInterval`, `useEffect` and React state batching are not modelled. The
  side-change effect and one interval firing are explicit methods.
- The rendered markup, the click callbacks and the plural suffixes
  ("track"/"tracks") are not modelled.
- The order of the album groups is not modelled. `Object.entries` lists
  integer-like keys first, so the groups are a map. An album titled like an
  `Object.prototype` member (`"constructor"`) is not modelled either.
- The personnel page's `formatDuration` is the same expression as the
  session panel's and is modelled once, as `SessionDisplay.FormatDuration`.
- Only ASCII letters are lower-cased in `Text.ToLower`. The tape selectors
  are ASCII.

## Findings

| source | as written | input that shows it | evidently intended | confidence | as-written member | corrected member |
|---|---|---|---|---|---|---|
| src/components/AudioPlayer.tsx:71-79 | the interval is set only while `currentTime < duration`, so the callback's `prev >= duration` branch, which pauses playback, never runs in normal playback | side A of 1 second: play, and after one tick the player stays at 0:01 of 0:01 with "▶ Now playing Side A" shown | playback pauses at the end of the side | medium, not executed | AudioPlayer.EndOfSideAsWritten | AudioPlayer.Player.Tick |

=== FILE: audio_player.dfy ===
/** The simulated player: a clock that counts whole seconds up to the side's
    running time, with play, mute, volume, seek and ten-second skips. */
module AudioPlayer {
  import opened Options
  import opened Cassette
  import opened CassetteGrid

  /** The interval callback on the previous position: at or past the end it
      pauses at the end, otherwise it moves on one second. */
  function Advance(prev: int, duration: nat, playing: bool): (int, bool) {
    if prev >= duration then (duration as int, false) else (prev + 1, playing)
  }

  class Player {
    var isPlaying: bool
    var currentTime: int
    var duration: nat
    var volume: real
    var isMuted: bool

    /** The position lies on the progress bar. */
    predicate Valid()
      reads this
    {
      0 <= currentTime <= duration
    }

    /** The initial state: paused at 0 of 0, volume 0.7, not muted. */
    constructor()
      ensures !isPlaying && currentTime == 0 && duration == 0 && volume == 0.7 && !isMuted
      ensures Valid()
    {
      isPlaying, currentTime, duration, volume, isMuted := false, 0, 0, 0.7, false;
    }

    /** The effect that runs when another side is selected: the duration
        becomes the side's running time and playback rewinds and pauses. */
    method SideChanged(side: CassetteSide)
      modifies this
      ensures duration == TotalSeconds(SideTracks(side))
      ensures currentTime == 0 && !isPlaying
      ensures volume == old(volume) && isMuted == old(isMuted)
      ensures Valid()
    {
      var total := SideSeconds(side);
      duration := total;
      currentTime := 0;
      isPlaying := false;
    }

    method TogglePlay()
      modifies this
      ensures isPlaying == !old(isPlaying)
      ensures currentTime == old(currentTime) && duration == old(duration)
      ensures volume == old(volume) && isMuted == old(isMuted)
    {
      isPlaying := !isPlaying;
    }

    method ToggleMute()
      modifies this
      ensures isMuted == !old(isMuted)
      ensures isPlaying == old(isPlaying) && currentTime == old(currentTime) && duration == old(duration)
      ensures volume == old(volume)
    {
      isMuted := !isMuted;
    }

    /** The progress bar's `onChange`: the value is taken as it comes, so the
        position stays on the bar exactly when the value does. */
    method Seek(newTime: int)
      modifies this
      ensures currentTime == newTime
      ensures isPlaying == old(isPlaying) && duration == old(duration)
      ensures volume == old(volume) && isMuted == old(isMuted)
      ensures Valid() <==> 0 <= newTime <= duration
    {
      currentTime := newTime;
    }

    /** The volume slider's `onChange`: a positive volume unmutes, zero
        leaves the mute flag as it was. */
    method VolumeChange(newVolume: real)
      modifies this
      ensures volume == newVolume
      ensures isMuted == (old(isMuted) && newVolume <= 0.0)
      ensures isPlaying == old(isPlaying) && currentTime == old(currentTime) && duration == old(duration)
    {
      volume := newVolume;
      if newVolume > 0.0 {
        isMuted := false;
      }
    }

    /** Back ten seconds, never before the start. */
    method SkipBackward()
      modifies this
      ensures currentTime == if old(currentTime) - 10 > 0 then old(currentTime) - 10 else 0
      ensures currentTime >= 0
      ensures old(Valid()) ==> Valid()
      ensures isPlaying == old(isPlaying) && duration == old(duration)
      ensures volume == old(volume) && isMuted == old(isMuted)
    {
      currentTime := if currentTime - 10 > 0 then currentTime - 10 else 0;
    }

    /** Forward ten seconds, never past the end. */
    method SkipForward()
      modifies this
      ensures currentTime == if duration < old(currentTime) + 10 then duration else old(currentTime) + 10
      ensures currentTime <= duration
      ensures old(Valid()) ==> Valid()
      ensures isPlaying == old(isPlaying) && duration == old(duration)
      ensures volume == old(volume) && isMuted == old(isMuted)
    {
      currentTime := if duration < currentTime + 10 then duration else currentTime + 10;
    }

    /** One second of playback as written: the interval exists only while
        playing short of the end, so the callback's end-of-side branch never
        runs and the player is left playing at the end. */
    method TickAsWritten()
      modifies this
      ensures if old(isPlaying) && old(currentTime) < duration
        then currentTime == old(currentTime) + 1 else currentTime == old(currentTime)
      ensures isPlaying == old(isPlaying)
      ensures duration == old(duration) && volume == old(volume) && isMuted == old(isMuted)
      ensures old(Valid()) ==> Valid()
    {
      if isPlaying && currentTime < duration {
        var next := Advance(currentTime, duration, isPlaying);
        currentTime, isPlaying := next.0, next.1;
      }
    }

    /** One second of playback as intended: the clock advances while playing,
        and a tick at or past the end pauses there. */
    method Tick()
      modifies this
      ensures old(isPlaying) && old(currentTime) < duration ==> currentTime == old(currentTime) + 1 && isPlaying
      ensures old(isPlaying) && old(currentTime) >= duration ==> currentTime == duration && !isPlaying
      ensures !old(isPlaying) ==> currentTime == old(currentTime) && !isPlaying
      ensures duration == old(duration) && volume == old(volume) && isMuted == old(isMuted)
      ensures old(Valid()) ==> Valid()
    {
      if isPlaying {
        var next := Advance(currentTime, duration, isPlaying);
        currentTime, isPlaying := next.0, next.1;
      }
    }

    /** Left to tick, intended playback reaches the end of the side and stops
        there, after at most `duration - currentTime + 1` ticks. */
    method PlayToEnd() returns (ticks: nat)
      requires Valid()
      modifies this
      ensures !isPlaying && (currentTime == duration || currentTime == old(currentTime))
      ensures old(isPlaying) ==> currentTime == duration && ticks == duration - old(currentTime) + 1
      ensures !old(isPlaying) ==> ticks == 0
      ensures duration == old(duration) && volume == old(volume) && isMuted == old(isMuted)
    {
      ticks := 0;
      while isPlaying
        invariant Valid()
        invariant duration == old(duration) && volume == old(volume) && isMuted == old(isMuted)
        invariant isPlaying ==> old(isPlaying) && currentTime == old(currentTime) + ticks
        invariant !isPlaying ==> if old(isPlaying)
          then currentTime == duration && ticks == duration - old(currentTime) + 1
          else currentTime == old(currentTime) && ticks == 0
        decreases isPlaying, duration - currentTime
      {
        Tick();
        ticks := ticks + 1;
      }
    }
  }

  /** As written, a one-second side played to the end is left playing: the
      "Now playing" label stays and the clock stands still. */
  method EndOfSideAsWritten() returns (p: Player)
    ensures p.currentTime == p.duration == 1
    ensures p.isPlaying
  {
    var track := Track(1, 0, "", 0, 1, None, None, None, None);
    var session := Session(None, None, None, [], [track]);
    var side := CassetteSide("1", A, "1A.mp3", None,
      SideMetadata("", "", "", "", "", "", "", ""), [session]);
    OneTrackSeconds(side);
    p := new Player();
    p.SideChanged(side);
    p.TogglePlay();
    p.TickAsWritten();
    p.TickAsWritten();
  }
}

=== FILE: cassette.dfy ===
/** The nested document the catalog is rendered from:
    CassetteSide ⊃ Session ⊃ Track ⊃ track-specific credits. */
module Cassette {
  import opened Options

  /** A side letter admits exactly two values. */
  datatype SideLetter = A | B

  datatype SideMetadata = SideMetadata(
    albumTitle: string,
    mainArtist: string,
    genre: string,
    recordDateDisplay: string,
    audioType: string,
    dolby: string,
    tapeSelector: string,
    catalogNumber: string)

  /** A session-level credit: the one record that also carries the source key. */
  datatype Personnel = Personnel(name: string, role: string, sourceKey: string)

  /** A track-level credit: name and role only. */
  datatype PersonnelCredit = PersonnelCredit(name: string, role: string)

  /** `trackSpecificCredits` is `None` when the property is absent, which is
      distinct from `Some([])`, an explicitly empty list. */
  datatype Track = Track(
    sequence: int,
    counterStart: int,
    title: string,
    durationMin: nat,
    durationSec: nat,
    artistDisplay: Option<string>,
    vocalistDisplay: Option<string>,
    trackSpecificCredits: Option<seq<PersonnelCredit>>,
    originalText: Option<string>)

  /** `sessionCode` is the always-present nullable field (`None` is null);
      `sessionDate` and `location` are optional properties (`None` is absent). */
  datatype Session = Session(
    sessionCode: Option<string>,
    sessionDate: Option<string>,
    location: Option<string>,
    sessionPersonnel: seq<Personnel>,
    tracks: seq<Track>)

  /** `hasAudio` is written by the database projection and read by the grid
      filter; the bundled sides leave it absent. */
  datatype CassetteSide = CassetteSide(
    tapeNumber: string,
    sideLetter: SideLetter,
    filename: string,
    hasAudio: Option<bool>,
    metadata: SideMetadata,
    sessions: seq<Session>)

  function LetterText(l: SideLetter): string {
    match l
    case A => "A"
    case B => "B"
  }

  /** The tracks of a side, session after session. */
  function SideTracks(side: CassetteSide): seq<Track> {
    SessionsTracks(side.sessions)
  }

  function SessionsTracks(sessions: seq<Session>): seq<Track> {
    if sessions == [] then [] else sessions[0].tracks + SessionsTracks(sessions[1..])
  }
}

=== FILE: cassette_grid.dfy ===
/** The browse grid: the "only sides with audio" filter and, per card, the
    side's total running time, its track count and the gradient of its icon. */
module CassetteGrid {
  import opened Options
  import opened Seqs
  import opened Text
  import opened Cassette
  import SessionDisplay

  // ----- The audio filter

  /** `side.has_audio ?? true`: a side whose audio is unknown counts as having it. */
  function MayHaveAudio(side: CassetteSide): bool {
    side.hasAudio.GetOr(true)
  }

  /** The cards on show: every side while the checkbox is off; otherwise the
      sides not known to lack audio, in their original order. */
  function VisibleSides(sides: seq<CassetteSide>, onlyWithAudio: bool): (r: seq<CassetteSide>)
    ensures !onlyWithAudio ==> r == sides
    ensures onlyWithAudio ==> forall s :: s in r <==> s in sides && s.hasAudio != Some(false)
  {
    if onlyWithAudio then Filter(sides, MayHaveAudio) else sides
  }

  /** The filter works side by side, so the cards keep their relative order. */
  lemma VisibleKeepsOrder(front: seq<CassetteSide>, back: seq<CassetteSide>, onlyWithAudio: bool)
    ensures VisibleSides(front + back, onlyWithAudio) == VisibleSides(front, onlyWithAudio) + VisibleSides(back, onlyWithAudio)
  {
    if onlyWithAudio {
      FilterConcat(front, back, MayHaveAudio);
    }
  }

  /** Sides that are not known to lack audio (the bundled ones leave the flag
      absent) all stay on show when the checkbox is ticked. */
  lemma UnknownAudioStaysVisible(sides: seq<CassetteSide>)
    requires forall i :: 0 <= i < |sides| ==> sides[i].hasAudio != Some(false)
    ensures VisibleSides(sides, true) == sides
  {
    FilterKeepsAll(sides, MayHaveAudio);
  }

  // ----- Running time

  /** `track.duration_min * 60 + track.duration_sec` */
  function Seconds(track: Track): nat {
    track.durationMin * 60 + track.durationSec
  }

  /** The running time of a list of tracks. */
  function TotalSeconds(tracks: seq<Track>): nat {
    if tracks == [] then 0 else TotalSeconds(tracks[..|tracks| - 1]) + Seconds(tracks[|tracks| - 1])
  }

  lemma {:induction false} TotalSecondsConcat(a: seq<Track>, b: seq<Track>)
    ensures TotalSeconds(a + b) == TotalSeconds(a) + TotalSeconds(b)
  {
    if b == [] {
      assert a + b == a;
    } else {
      TotalSecondsConcat(a, b[..|b| - 1]);
      assert (a + b)[..|a + b| - 1] == a + b[..|b| - 1];
      assert (a + b)[|a + b| - 1] == b[|b| - 1];
    }
  }

  lemma {:induction false} SessionsTracksSnoc(sessions: seq<Session>, s: Session)
    ensures SessionsTracks(sessions + [s]) == SessionsTracks(sessions) + s.tracks
  {
    if sessions == [] {
      assert SessionsTracks([s]) == s.tracks + SessionsTracks([]);
    } else {
      assert (sessions + [s])[1..] == sessions[1..] + [s];
      SessionsTracksSnoc(sessions[1..], s);
      AppendAssoc(sessions[0].tracks, SessionsTracks(sessions[1..]), s.tracks);
    }
  }

  lemma OneTrackSeconds(side: CassetteSide)
    requires |side.sessions| == 1 && |side.sessions[0].tracks| == 1
    ensures TotalSeconds(SideTracks(side)) == Seconds(side.sessions[0].tracks[0])
  {
    var tracks := side.sessions[0].tracks;
    assert SessionsTracks(side.sessions[1..]) == [];
    assert SideTracks(side) == tracks + [];
    assert tracks[..0] == [];
  }

  /** The nested `forEach` that adds up every track of every session; the
      audio player computes a side's duration with the same loop. */
  method SideSeconds(side: CassetteSide) returns (total: nat)
    ensures total == TotalSeconds(SideTracks(side))
  {
    total := 0;
    for i := 0 to |side.sessions|
      invariant total == TotalSeconds(SessionsTracks(side.sessions[..i]))
    {
      var tracks := side.sessions[i].tracks;
      ghost var before := total;
      for k := 0 to |tracks|
        invariant total == before + TotalSeconds(tracks[..k])
      {
        assert tracks[..k + 1][..k] == tracks[..k];
        total := total + tracks[k].durationMin * 60 + tracks[k].durationSec;
      }
      assert tracks[..|tracks|] == tracks;
      TakeSnoc(side.sessions, i);
      SessionsTracksSnoc(side.sessions[..i], side.sessions[i]);
      TotalSecondsConcat(SessionsTracks(side.sessions[..i]), tracks);
    }
    assert side.sessions[..|side.sessions|] == side.sessions;
  }

  /** `${Math.floor(total / 60)}:${(total % 60).toString().padStart(2, '0')}`:
      the text reads back as minutes and seconds that denote `total`, with the
      seconds under 60 even when a track's own seconds field is not. */
  function FormatClock(total: nat): (r: string)
    ensures total % 60 < 10 ==> r == NatToString(total / 60) + ":0" + NatToString(total % 60)
    ensures total % 60 >= 10 ==> r == NatToString(total / 60) + ":" + NatToString(total % 60)
    ensures ParseClock(r).Some?
    ensures ParseClock(r).value.1 < 60
    ensures ParseClock(r).value.0 * 60 + ParseClock(r).value.1 == total
  {
    SessionDisplay.FormatDurationRoundTrip(total / 60, total % 60);
    SessionDisplay.FormatDuration(total / 60, total % 60)
  }

  /** The card's duration line. */
  method GetTotalDuration(side: CassetteSide) returns (text: string)
    ensures text == FormatClock(TotalSeconds(SideTracks(side)))
  {
    var total := SideSeconds(side);
    text := FormatClock(total);
  }

  // ----- Track count

  /** `sessions.reduce((total, session) => total + session.tracks.length, 0)` */
  function TrackCount(sessions: seq<Session>): nat {
    if sessions == [] then 0
    else TrackCount(sessions[..|sessions| - 1]) + |sessions[|sessions| - 1].tracks|
  }

  lemma {:induction false} TrackCountIsLength(sessions: seq<Session>)
    ensures TrackCount(sessions) == |SessionsTracks(sessions)|
  {
    if sessions != [] {
      var front := sessions[..|sessions| - 1];
      TrackCountIsLength(front);
      SessionsTracksSnoc(front, sessions[|sessions| - 1]);
      assert front + [sessions[|sessions| - 1]] == sessions;
    }
  }

  /** The card's track count is the number of tracks on the side. */
  function GetTotalTracks(side: CassetteSide): (r: nat)
    ensures r == |SideTracks(side)|
  {
    TrackCountIsLength(side.sessions);
    TrackCount(side.sessions)
  }

  // ----- Icon gradient

  const MetalGradient := "from-purple-400 to-indigo-500"
  const AmberGradient := "from-amber-400 to-orange-500"
  const SideBGradient := "from-red-400 to-pink-500"

  /** The `switch` on the lower-cased tape selector; "chrome" and every
      unlisted selector share the amber gradient. */
  function TapeTypeColor(selector: string): (r: string)
    ensures r == MetalGradient <==> ToLower(selector) == "metal"
    ensures r != MetalGradient ==> r == AmberGradient
  {
    match ToLower(selector)
    case "metal" => MetalGradient
    case "chrome" => AmberGradient
    case _ => AmberGradient
  }

  /** A B side's icon is always red; an A side's follows its tape selector. */
  function IconGradient(side: CassetteSide): (r: string)
    ensures side.sideLetter == B ==> r == SideBGradient
    ensures r == MetalGradient <==> side.sideLetter == A && ToLower(side.metadata.tapeSelector) == "metal"
  {
    if side.sideLetter == A then TapeTypeColor(side.metadata.tapeSelector) else SideBGradient
  }

  /** The bundled catalog's capitalised "Metal" selector is lower-cased
      before the comparison, so it gets the metal gradient. */
  lemma MetalSelector()
    ensures TapeTypeColor("Metal") == MetalGradient
  {
    var lower := ToLower("Metal");
    assert lower[0] == 'm';
    assert lower == "metal";
  }
}

=== FILE: fallback.dfy ===
/** The bundled reference catalog served whenever the database yields no side,
    and the shape that makes it a valid substitute. */
module Fallback {
  import opened Options
  import opened Text
  import opened Cassette
  import SessionDisplay

  function P(name: string, role: string, key: string): Personnel {
    Personnel(name, role, key)
  }

  /** A bundled track: no artist, no track-specific credits. */
  function T(sequence: int, counter: int, title: string, min: nat, sec: nat,
             vocalist: Option<string>, line: string): Track
  {
    Track(sequence, counter, title, min, sec, None, vocalist, None, Some(line))
  }

  const Bluegrass := SideMetadata("The Best of Bluegrass 1940-1941", "Bill Monroe & His Blue Grass Boys",
    "Bluegrass", "1940-1941", "Mono", "None", "Normal", "MCA-527")

  function Tape013A(): CassetteSide {
    CassetteSide("013", A, "Tape013A", None, Bluegrass, [
      Session(Some("October 1940 Session"), Some("October 7, 1940"), Some("RCA Victor Studio, Chicago"),
        [P("Bill Monroe", "Mandolin, Vocals", "a"), P("Cleo Davis", "Guitar", "b"),
         P("Tommy Magness", "Fiddle", "c"), P("Amos Garren", "Bass", "d")],
        [T(1, 0, "Mule Skinner Blues", 2, 48, None, "1. 000 Mule Skinner Blues (2:48)"),
         T(2, 140, "Six White Horses", 2, 52, None, "2. 140 Six White Horses (2:52)"),
         T(3, 285, "Kentucky Waltz", 3, 15, Some("Voc: Monroe"), "3. 285 Kentucky Waltz (3:15) Voc: Monroe")]),
      Session(Some("February 1941 Session"), Some("February 17, 1941"), Some("RCA Victor Studio, Chicago"),
        [P("Bill Monroe", "Mandolin, Vocals", "a"), P("Pete Pyle", "Guitar", "e"),
         P("Tommy Magness", "Fiddle", "c"), P("Bill Westbrooks", "Bass", "f")],
        [T(4, 490, "In the Pines", 2, 35, None, "4. 490 In the Pines (2:35)"),
         T(5, 625, "Goodbye Old Pal", 3, 8, None, "5. 625 Goodbye Old Pal (3:08)")])])
  }

  function Tape013B(): CassetteSide {
    CassetteSide("013", B, "Tape013B", None, Bluegrass, [
      Session(None, Some("1941"), Some("RCA Victor Studio, Chicago"),
        [P("Bill Monroe", "Mandolin, Vocals", "a"), P("Pete Pyle", "Guitar", "e"),
         P("Tommy Magness", "Fiddle", "c"), P("Bill Westbrooks", "Bass", "f")],
        [T(1, 0, "Heavy Traffic Ahead", 2, 42, None, "1. 000 Heavy Traffic Ahead (2:42)"),
         T(2, 135, "Blue Yodel No. 4", 3, 22, Some("Voc: Monroe"), "2. 135 Blue Yodel No. 4 (3:22) Voc: Monroe"),
         T(3, 320, "Dog House Blues", 2, 58, None, "3. 320 Dog House Blues (2:58)")])])
  }

  function Tape027A(): CassetteSide {
    CassetteSide("027", A, "Tape027A", None,
      SideMetadata("Jazz at the Philharmonic", "Various Artists", "Jazz", "1958", "Mono", "Dolby B", "Chrome", "VERVE-8269"), [
      Session(Some("Group A"), Some("September 29, 1958"), Some("Carnegie Hall, New York"),
        [P("Dizzy Gillespie", "Trumpet", "1"), P("Stan Getz", "Tenor Sax", "2"), P("Oscar Peterson", "Piano", "3"),
         P("Ray Brown", "Bass", "4"), P("Herb Ellis", "Guitar", "5"), P("Louie Bellson", "Drums", "6")],
        [T(1, 0, "Cottontail", 8, 15, None, "1. 000 Cottontail (8:15)"),
         T(2, 410, "How High the Moon", 11, 32, None, "2. 410 How High the Moon (11:32)")]),
      Session(Some("Group B"), Some("September 29, 1958"), Some("Carnegie Hall, New York"),
        [P("Roy Eldridge", "Trumpet", "7"), P("Coleman Hawkins", "Tenor Sax", "8"), P("Oscar Peterson", "Piano", "3"),
         P("Ray Brown", "Bass", "4"), P("Herb Ellis", "Guitar", "5"), P("Louie Bellson", "Drums", "6")],
        [T(3, 1105, "Sweethearts on Parade", 6, 28, None, "3. 1105 Sweethearts on Parade (6:28)")])])
  }

  function Tape042A(): CassetteSide {
    CassetteSide("042", A, "Tape042A", None,
      SideMetadata("Live at the Village Vanguard", "John Coltrane Quartet", "Jazz", "November 1961", "Stereo",
        "Dolby C", "Metal", "IMPULSE-10"), [
      Session(None, Some("November 2, 1961"), Some("Village Vanguard, New York City"),
        [P("John Coltrane", "Tenor Saxophone", "a"), P("McCoy Tyner", "Piano", "b"),
         P("Jimmy Garrison", "Bass", "c"), P("Elvin Jones", "Drums", "d")],
        [T(1, 0, "Spiritual", 12, 45, None, "1. 000 Spiritual (12:45)"),
         T(2, 638, "Softly, as in a Morning Sunrise", 10, 18, None, "2. 638 Softly, as in a Morning Sunrise (10:18)")])])
  }

  function Tape065A(): CassetteSide {
    CassetteSide("065", A, "Tape065A", None,
      SideMetadata("The Complete Louis Armstrong Hot Five & Hot Seven", "Louis Armstrong", "Jazz / Traditional",
        "1925-1928", "Mono", "None", "Normal", "COLUMBIA-C4L-19"), [
      Session(Some("Hot Five - 1926"), Some("February 26, 1926"), Some("OKeh Studios, Chicago"),
        [P("Louis Armstrong", "Cornet, Vocals", "LA"), P("Kid Ory", "Trombone", "KO"), P("Johnny Dodds", "Clarinet", "JD"),
         P("Lil Hardin Armstrong", "Piano", "LH"), P("Johnny St. Cyr", "Banjo", "JS")],
        [T(1, 0, "Muskrat Ramble", 2, 58, None, "1. 000 Muskrat Ramble (2:58)"),
         T(2, 148, "Heebie Jeebies", 2, 52, Some("Voc: Armstrong (scat)"),
           "2. 148 Heebie Jeebies (2:52) Voc: Armstrong (scat)")]),
      Session(Some("Hot Seven - 1927"), Some("May 7, 1927"), Some("OKeh Studios, Chicago"),
        [P("Louis Armstrong", "Trumpet, Vocals", "LA"), P("John Thomas", "Trombone", "JT"),
         P("Johnny Dodds", "Clarinet", "JD"), P("Lil Hardin Armstrong", "Piano", "LH"), P("Johnny St. Cyr", "Banjo", "JS"),
         P("Pete Briggs", "Tuba", "PB"), P("Baby Dodds", "Drums", "BD")],
        [T(3, 295, "Potato Head Blues", 3, 8, None, "3. 295 Potato Head Blues (3:08)"),
         T(4, 485, "Weary Blues", 3, 18, None, "4. 485 Weary Blues (3:18)")])])
  }

  function Tape089B(): CassetteSide {
    CassetteSide("089", B, "Tape089B", None,
      SideMetadata("The Freewheelin' Bob Dylan", "Bob Dylan", "Folk", "1962-1963", "Stereo", "Dolby B", "Chrome",
        "COLUMBIA-CS-8786"), [
      Session(None, Some("April 24, 1963"), Some("Columbia Recording Studios, New York"),
        [P("Bob Dylan", "Vocals, Guitar, Harmonica", "BD")],
        [T(1, 0, "Blowin' in the Wind", 2, 48, None, "1. 000 Blowin' in the Wind (2:48)"),
         T(2, 140, "Don't Think Twice, It's All Right", 3, 40, None, "2. 140 Don't Think Twice, It's All Right (3:40)"),
         T(3, 360, "A Hard Rain's A-Gonna Fall", 6, 55, None, "3. 360 A Hard Rain's A-Gonna Fall (6:55)")])])
  }

  /** The bundled catalog, in its declared order. */
  function CassetteSides(): seq<CassetteSide> {
    [Tape013A(), Tape013B(), Tape027A(), Tape042A(), Tape065A(), Tape089B()]
  }
}

=== FILE: fallback_shape.dfy ===
/** The shape of the bundled catalog: what makes it a valid stand-in for the
    database (every side survives the post-filter, the list is non-empty and
    ordered like the side query). */
module FallbackShape {
  import opened Options
  import opened Text
  import opened Cassette
  import opened Sorting
  import SessionDisplay
  import opened Fallback

  predicate FilenameFollowsTape(side: CassetteSide) {
    side.tapeNumber != "" && side.filename == "Tape" + side.tapeNumber + LetterText(side.sideLetter)
  }

  predicate SessionsCredited(side: CassetteSide) {
    forall s :: s in side.sessions ==>
      && (exists p :: p in s.sessionPersonnel && p.sourceKey != "")
      && SessionDisplay.ShowsPersonnel(s)
  }

  predicate TracksPlain(side: CassetteSide) {
    forall t :: t in SideTracks(side) ==> t.durationSec < 60 && t.trackSpecificCredits.None?
  }

  /** Track `a` comes strictly before track `b`, by sequence and by counter. */
  predicate TrackBefore(a: Track, b: Track) {
    a.sequence < b.sequence && a.counterStart < b.counterStart
  }

  predicate Ascending(ts: seq<Track>) {
    forall i :: 0 <= i < |ts| - 1 ==> TrackBefore(ts[i], ts[i + 1])
  }

  predicate TracksAscending(side: CassetteSide) {
    Ascending(SideTracks(side))
  }

  lemma AscendingConcat(a: seq<Track>, b: seq<Track>)
    requires Ascending(a) && Ascending(b)
    requires a != [] && b != [] ==> TrackBefore(a[|a| - 1], b[0])
    ensures Ascending(a + b)
  {
    forall i | 0 <= i < |a + b| - 1
      ensures TrackBefore((a + b)[i], (a + b)[i + 1])
    {
      if i >= |a| {
        assert (a + b)[i] == b[i - |a|] && (a + b)[i + 1] == b[i + 1 - |a|];
      }
    }
  }

  /** Sessions whose own tracks ascend, each ending before the next begins,
      give ascending side tracks. */
  lemma {:induction false} SessionsAscending(ss: seq<Session>)
    requires forall k :: 0 <= k < |ss| ==> ss[k].tracks != [] && Ascending(ss[k].tracks)
    requires forall k :: 0 <= k < |ss| - 1 ==> TrackBefore(ss[k].tracks[|ss[k].tracks| - 1], ss[k + 1].tracks[0])
    ensures Ascending(SessionsTracks(ss))
    ensures ss != [] ==> SessionsTracks(ss) != [] && SessionsTracks(ss)[0] == ss[0].tracks[0]
  {
    if ss != [] {
      SessionsAscending(ss[1..]);
      AscendingConcat(ss[0].tracks, SessionsTracks(ss[1..]));
    }
  }

  /** Everything the catalog relies on for one bundled side. */
  predicate WellShapedSide(side: CassetteSide) {
    && FilenameFollowsTape(side) && SessionsCredited(side) && TracksPlain(side)
    && TracksAscending(side)
  }

  /** Side order of the side query: tape number, then side letter, as text. */
  predicate SideBefore(a: CassetteSide, b: CassetteSide) {
    StrLe(a.tapeNumber, b.tapeNumber)
    && (a.tapeNumber == b.tapeNumber ==> StrLe(LetterText(a.sideLetter), LetterText(b.sideLetter)))
  }


  lemma Tape013AFilename() ensures FilenameFollowsTape(Tape013A()) { }
  lemma Tape013ACredited() ensures SessionsCredited(Tape013A()) { }
  lemma Tape013APlain() ensures TracksPlain(Tape013A()) { }
  lemma Tape013AAscending() ensures TracksAscending(Tape013A()) { SessionsAscending(Tape013A().sessions); }

  lemma Tape013AWellShaped()
    ensures WellShapedSide(Tape013A())
  {
    Tape013AFilename(); Tape013ACredited(); Tape013APlain(); Tape013AAscending();
  }

  lemma Tape013BFilename() ensures FilenameFollowsTape(Tape013B()) { }
  lemma Tape013BCredited() ensures SessionsCredited(Tape013B()) { }
  lemma Tape013BPlain() ensures TracksPlain(Tape013B()) { }
  lemma Tape013BAscending() ensures TracksAscending(Tape013B()) { SessionsAscending(Tape013B().sessions); }

  lemma Tape013BWellShaped()
    ensures WellShapedSide(Tape013B())
  {
    Tape013BFilename(); Tape013BCredited(); Tape013BPlain(); Tape013BAscending();
  }

  lemma Tape027AFilename() ensures FilenameFollowsTape(Tape027A()) { }
  lemma Tape027ACredited() ensures SessionsCredited(Tape027A()) { }
  lemma Tape027APlain() ensures TracksPlain(Tape027A()) { }
  lemma Tape027AAscending() ensures TracksAscending(Tape027A()) { SessionsAscending(Tape027A().sessions); }

  lemma Tape027AWellShaped()
    ensures WellShapedSide(Tape027A())
  {
    Tape027AFilename(); Tape027ACredited(); Tape027APlain(); Tape027AAscending();
  }

  lemma Tape042AFilename() ensures FilenameFollowsTape(Tape042A()) { }
  lemma Tape042ACredited() ensures SessionsCredited(Tape042A()) { }
  lemma Tape042APlain() ensures TracksPlain(Tape042A()) { }
  lemma Tape042AAscending() ensures TracksAscending(Tape042A()) { SessionsAscending(Tape042A().sessions); }

  lemma Tape042AWellShaped()
    ensures WellShapedSide(Tape042A())
  {
    Tape042AFilename(); Tape042ACredited(); Tape042APlain(); Tape042AAscending();
  }

  lemma Tape065AFilename() ensures FilenameFollowsTape(Tape065A()) { }
  lemma Tape065ACredited() ensures SessionsCredited(Tape065A()) { }
  lemma Tape065APlain() ensures TracksPlain(Tape065A()) { }
  lemma Tape065AAscending() ensures TracksAscending(Tape065A()) { SessionsAscending(Tape065A().sessions); }

  lemma Tape065AWellShaped()
    ensures WellShapedSide(Tape065A())
  {
    Tape065AFilename(); Tape065ACredited(); Tape065APlain(); Tape065AAscending();
  }

  lemma Tape089BFilename() ensures FilenameFollowsTape(Tape089B()) { }
  lemma Tape089BCredited() ensures SessionsCredited(Tape089B()) { }
  lemma Tape089BPlain() ensures TracksPlain(Tape089B()) { }
  lemma Tape089BAscending() ensures TracksAscending(Tape089B()) { SessionsAscending(Tape089B().sessions); }

  lemma Tape089BWellShaped()
    ensures WellShapedSide(Tape089B())
  {
    Tape089BFilename(); Tape089BCredited(); Tape089BPlain(); Tape089BAscending();
  }

  // ----- Neighbouring sides

  /** `a` comes before `b` in side-query order and has a smaller filename. */
  predicate SideStep(a: CassetteSide, b: CassetteSide) {
    SideBefore(a, b) && StrLe(a.filename, b.filename) && a.filename != b.filename
  }

  lemma Step013A() ensures SideStep(Tape013A(), Tape013B()) { }
  lemma Step013B() ensures SideStep(Tape013B(), Tape027A()) { }
  lemma Step027A() ensures SideStep(Tape027A(), Tape042A()) { }
  lemma Step042A() ensures SideStep(Tape042A(), Tape065A()) { }
  lemma Step065A() ensures SideStep(Tape065A(), Tape089B()) { }

  lemma SideBeforeTransitive(a: CassetteSide, b: CassetteSide, c: CassetteSide)
    requires SideBefore(a, b) && SideBefore(b, c)
    ensures SideBefore(a, c)
  {
    StrLeTransitive(a.tapeNumber, b.tapeNumber, c.tapeNumber);
    if a.tapeNumber == c.tapeNumber {
      StrLeAntisymmetric(a.tapeNumber, b.tapeNumber);
      StrLeTransitive(LetterText(a.sideLetter), LetterText(b.sideLetter), LetterText(c.sideLetter));
    }
  }

  lemma SideStepTransitive(a: CassetteSide, b: CassetteSide, c: CassetteSide)
    requires SideStep(a, b) && SideStep(b, c)
    ensures SideStep(a, c)
  {
    SideBeforeTransitive(a, b, c);
    StrLeTransitive(a.filename, b.filename, c.filename);
    if a.filename == c.filename {
      StrLeAntisymmetric(a.filename, b.filename);
    }
  }

  /** Steps between neighbours make steps between any two sides. */
  lemma {:induction false} StepsChain(s: seq<CassetteSide>)
    requires forall i :: 0 <= i < |s| - 1 ==> SideStep(s[i], s[i + 1])
    ensures forall i, j :: 0 <= i < j < |s| ==> SideStep(s[i], s[j])
  {
    if |s| > 1 {
      StepsChain(s[1..]);
      forall j | 1 < j < |s|
        ensures SideStep(s[0], s[j])
      {
        assert SideStep(s[1], s[j]) by { assert s[1..][0] == s[1] && s[1..][j - 1] == s[j]; }
        SideStepTransitive(s[0], s[1], s[j]);
      }
      forall i, j | 0 <= i < j < |s|
        ensures SideStep(s[i], s[j])
      {
        if i > 0 {
          assert s[1..][i - 1] == s[i] && s[1..][j - 1] == s[j];
        }
      }
    }
  }

  // ----- The whole catalog

  /** Ordered like the side query orders its rows. */
  predicate OrderedSides(s: seq<CassetteSide>) {
    forall i, j :: 0 <= i < j < |s| ==> SideBefore(s[i], s[j])
  }

  predicate DistinctFilenames(s: seq<CassetteSide>) {
    forall i, j :: 0 <= i < j < |s| ==> s[i].filename != s[j].filename
  }

  /** Six sides, each a step before the next, are ordered like the side
      query orders its rows and have pairwise distinct filenames. */
  lemma SixSidesOrdered(a: CassetteSide, b: CassetteSide, c: CassetteSide,
                        d: CassetteSide, e: CassetteSide, f: CassetteSide)
    requires SideStep(a, b) && SideStep(b, c) && SideStep(c, d) && SideStep(d, e) && SideStep(e, f)
    ensures OrderedSides([a, b, c, d, e, f]) && DistinctFilenames([a, b, c, d, e, f])
  {
    StepsChain([a, b, c, d, e, f]);
  }

  /** The bundled catalog is non-empty, and every side in it has a tape
      number and is named after it. */
  lemma CatalogServable()
    ensures |CassetteSides()| == 6
    ensures forall i :: 0 <= i < |CassetteSides()| ==> FilenameFollowsTape(CassetteSides()[i])
  {
    Tape013AFilename(); Tape013BFilename(); Tape027AFilename();
    Tape042AFilename(); Tape065AFilename(); Tape089BFilename();
  }

  /** The bundled catalog is ordered like the side query orders its rows,
      and no two of its sides share a filename. */
  lemma CatalogOrdered()
    ensures OrderedSides(CassetteSides()) && DistinctFilenames(CassetteSides())
  {
    Step013A(); Step013B(); Step027A(); Step042A(); Step065A();
    SixSidesOrdered(Tape013A(), Tape013B(), Tape027A(), Tape042A(), Tape065A(), Tape089B());
  }
}

=== FILE: options.dfy ===
/** SQL NULL, a JavaScript `undefined` field and an absent optional property are
    all modelled by the one option type below. */
module Options {

  datatype Option<+T> = None | Some(value: T) {

    /** The value, or `default` when there is none (SQL `COALESCE`, JS `??`). */
    function GetOr(default: T): T {
      match this
      case Some(v) => v
      case None => default
    }
  }
}

=== FILE: personnel_detail.dfy ===
/** The personnel page: every track a person plays on, found through the
    session-level personnel lists, with the roles they are credited with, the
    page statistics and the grouping by album. */
module PersonnelDetail {
  import opened Seqs
  import opened Cassette

  /** One track the person appears on, located by session and track index
      within its side, with the roles and source keys of the person's entries
      in that session's personnel (index-aligned). */
  datatype Appearance = Appearance(
    side: CassetteSide,
    sessionIndex: nat,
    trackIndex: nat,
    roles: seq<string>,
    sourceKeys: seq<string>)

  // ----- Specification

  /** The session's personnel entries carrying the person's name, in order. */
  function Entries(session: Session, name: string): (r: seq<Personnel>)
    ensures forall p :: p in r <==> p in session.sessionPersonnel && p.name == name
  {
    Filter(session.sessionPersonnel, (p: Personnel) => p.name == name)
  }

  function RoleOf(p: Personnel): string { p.role }

  function KeyOf(p: Personnel): string { p.sourceKey }

  /** The appearances session `si` of `side` contributes: one per track when
      the person is among its personnel, none otherwise. */
  function SessionAppearances(side: CassetteSide, si: nat, name: string): (r: seq<Appearance>)
    requires si < |side.sessions|
  {
    var entries := Entries(side.sessions[si], name);
    if |entries| > 0 then
      seq(|side.sessions[si].tracks|, k requires 0 <= k < |side.sessions[si].tracks| =>
        Appearance(side, si, k, Map(entries, RoleOf), Map(entries, KeyOf)))
    else []
  }

  /** The appearances of the first `n` sessions of `side`, session by session. */
  function SideAppearances(side: CassetteSide, name: string, n: nat): seq<Appearance>
    requires n <= |side.sessions|
  {
    if n == 0 then [] else SideAppearances(side, name, n - 1) + SessionAppearances(side, n - 1, name)
  }

  /** The appearances on the first `m` sides, side by side. */
  function Appearances(sides: seq<CassetteSide>, name: string, m: nat): seq<Appearance>
    requires m <= |sides|
  {
    if m == 0 then []
    else Appearances(sides, name, m - 1) + SideAppearances(sides[m - 1], name, |sides[m - 1].sessions|)
  }

  /** The roles of the person's entries in one session. */
  function SessionRoles(session: Session, name: string): set<string> {
    set p | p in Entries(session, name) :: p.role
  }

  function SideRoles(side: CassetteSide, name: string, n: nat): set<string>
    requires n <= |side.sessions|
  {
    if n == 0 then {} else SideRoles(side, name, n - 1) + SessionRoles(side.sessions[n - 1], name)
  }

  function AllRoles(sides: seq<CassetteSide>, name: string, m: nat): set<string>
    requires m <= |sides|
  {
    if m == 0 then {} else AllRoles(sides, name, m - 1) + SideRoles(sides[m - 1], name, |sides[m - 1].sessions|)
  }

  // ----- The aggregation

  /** The body of the inner `forEach`: a session with an entry for the person
      adds its roles to `allRoles` and one appearance per track. */
  method VisitSession(name: string, side: CassetteSide, si: nat,
                      appearances: seq<Appearance>, allRoles: set<string>)
    returns (appearances': seq<Appearance>, allRoles': set<string>)
    requires si < |side.sessions|
    ensures appearances' == appearances + SessionAppearances(side, si, name)
    ensures allRoles' == allRoles + SessionRoles(side.sessions[si], name)
  {
    appearances', allRoles' := appearances, allRoles;
    var session := side.sessions[si];
    var entries := Entries(session, name);
    if |entries| > 0 {
      var roles := Map(entries, RoleOf);
      var sourceKeys := Map(entries, KeyOf);
      for r := 0 to |roles|
        invariant allRoles' == allRoles + set j | 0 <= j < r :: roles[j]
      {
        allRoles' := allRoles' + {roles[r]};
      }
      RolesOfEntries(session, name);
      ghost var block := SessionAppearances(side, si, name);
      for k := 0 to |session.tracks|
        invariant appearances' == appearances + block[..k]
      {
        assert block[..k + 1] == block[..k] + [Appearance(side, si, k, roles, sourceKeys)];
        appearances' := appearances' + [Appearance(side, si, k, roles, sourceKeys)];
      }
      assert block[..|session.tracks|] == block;
    } else {
      assert SessionRoles(session, name) == {};
    }
  }

  /** The body of the outer `forEach`: every session of one side in turn. */
  method VisitSide(name: string, side: CassetteSide, appearances: seq<Appearance>, allRoles: set<string>)
    returns (appearances': seq<Appearance>, allRoles': set<string>)
    ensures appearances' == appearances + SideAppearances(side, name, |side.sessions|)
    ensures allRoles' == allRoles + SideRoles(side, name, |side.sessions|)
  {
    appearances', allRoles' := appearances, allRoles;
    for si := 0 to |side.sessions|
      invariant appearances' == appearances + SideAppearances(side, name, si)
      invariant allRoles' == allRoles + SideRoles(side, name, si)
    {
      appearances', allRoles' := VisitSession(name, side, si, appearances', allRoles');
      AppendAssoc(appearances, SideAppearances(side, name, si), SessionAppearances(side, si, name));
    }
  }

  /** The nested `forEach` over sides and their sessions. */
  method Aggregate(name: string, sides: seq<CassetteSide>) returns (appearances: seq<Appearance>, allRoles: set<string>)
    ensures appearances == Appearances(sides, name, |sides|)
    ensures allRoles == AllRoles(sides, name, |sides|)
  {
    appearances := [];
    allRoles := {};
    for i := 0 to |sides|
      invariant appearances == Appearances(sides, name, i)
      invariant allRoles == AllRoles(sides, name, i)
    {
      appearances, allRoles := VisitSide(name, sides[i], appearances, allRoles);
    }
  }

  lemma RolesOfEntries(session: Session, name: string)
    ensures (set j | 0 <= j < |Map(Entries(session, name), RoleOf)| :: Map(Entries(session, name), RoleOf)[j])
      == SessionRoles(session, name)
  {
    var entries := Entries(session, name);
    var roles := Map(entries, RoleOf);
    forall r | r in SessionRoles(session, name)
      ensures r in set j | 0 <= j < |roles| :: roles[j]
    {
      var p :| p in entries && p.role == r;
      var j :| 0 <= j < |entries| && entries[j] == p;
      assert roles[j] == r;
    }
  }

  // ----- What the aggregation finds

  /** `a` is an appearance its own side yields: the indices name a track of
      a session whose personnel names the person, and the roles and source
      keys are those of the person's entries there. */
  predicate Yielded(name: string, a: Appearance) {
    && a.sessionIndex < |a.side.sessions|
    && a.trackIndex < |a.side.sessions[a.sessionIndex].tracks|
    && Entries(a.side.sessions[a.sessionIndex], name) != []
    && a.roles == Map(Entries(a.side.sessions[a.sessionIndex], name), RoleOf)
    && a.sourceKeys == Map(Entries(a.side.sessions[a.sessionIndex], name), KeyOf)
  }

  lemma SessionMembers(side: CassetteSide, si: nat, name: string, a: Appearance)
    requires si < |side.sessions|
    ensures a in SessionAppearances(side, si, name) <==> a.side == side && a.sessionIndex == si && Yielded(name, a)
  {
    if a.side == side && a.sessionIndex == si && Yielded(name, a) {
      assert SessionAppearances(side, si, name)[a.trackIndex] == a;
    }
  }

  lemma {:induction false} SideMembers(side: CassetteSide, name: string, n: nat, a: Appearance)
    requires n <= |side.sessions|
    ensures a in SideAppearances(side, name, n) <==> a.side == side && a.sessionIndex < n && Yielded(name, a)
  {
    if n > 0 {
      SideMembers(side, name, n - 1, a);
      SessionMembers(side, n - 1, name, a);
      ConcatMembers(a, SideAppearances(side, name, n - 1), SessionAppearances(side, n - 1, name),
        a.side == side && a.sessionIndex < n - 1 && Yielded(name, a),
        a.side == side && a.sessionIndex == n - 1 && Yielded(name, a));
    }
  }

  /** Soundness and completeness: an appearance is produced exactly for each
      track of each session whose personnel names the person, whatever the
      track's own credits say. */
  lemma {:induction false} AppearancesExactly(sides: seq<CassetteSide>, name: string, m: nat, a: Appearance)
    requires m <= |sides|
    ensures a in Appearances(sides, name, m) <==> a.side in sides[..m] && Yielded(name, a)
  {
    if m > 0 {
      AppearancesExactly(sides, name, m - 1, a);
      var prev, block := Appearances(sides, name, m - 1), SideAppearances(sides[m - 1], name, |sides[m - 1].sessions|);
      SideMembers(sides[m - 1], name, |sides[m - 1].sessions|, a);
      assert a in prev + block <==> a in prev || a in block;
      TakeSnoc(sides, m - 1);
      assert a.side in sides[..m] <==> a.side in sides[..m - 1] || a.side == sides[m - 1];
    }
  }

  /** Every appearance points at a real track of a side in the list, and its
      roles and source keys are index-aligned copies of the person's entries
      in that session. */
  lemma AppearanceValid(sides: seq<CassetteSide>, name: string, a: Appearance)
    requires a in Appearances(sides, name, |sides|)
    ensures a.side in sides
    ensures a.sessionIndex < |a.side.sessions|
    ensures a.trackIndex < |a.side.sessions[a.sessionIndex].tracks|
    ensures var entries := Entries(a.side.sessions[a.sessionIndex], name);
      && |a.roles| == |a.sourceKeys| == |entries| > 0
      && (forall j :: 0 <= j < |entries| ==>
            a.roles[j] == entries[j].role && a.sourceKeys[j] == entries[j].sourceKey)
      && (forall p :: p in entries ==> p in a.side.sessions[a.sessionIndex].sessionPersonnel && p.name == name)
  {
    AppearancesExactly(sides, name, |sides|, a);
    assert sides[..|sides|] == sides;
  }

  /** Each appearance comes from a personnel entry with the person's name. */
  lemma AppearanceHasEntry(sides: seq<CassetteSide>, name: string, a: Appearance)
    requires a in Appearances(sides, name, |sides|)
    ensures exists side, session, p ::
      side in sides && session in side.sessions && p in session.sessionPersonnel && p.name == name
  {
    AppearanceValid(sides, name, a);
    var session := a.side.sessions[a.sessionIndex];
    var p := Entries(session, name)[0];
    assert p in Entries(session, name);
    assert session in a.side.sessions;
  }

  /** A person who is in no session's personnel (at most in track-specific
      credits) has no appearances. */
  lemma NoEntryNoAppearance(sides: seq<CassetteSide>, name: string)
    requires forall side, session, p ::
      side in sides && session in side.sessions && p in session.sessionPersonnel ==> p.name != name
    ensures Appearances(sides, name, |sides|) == []
  {
    if Appearances(sides, name, |sides|) != [] {
      AppearanceHasEntry(sides, name, Appearances(sides, name, |sides|)[0]);
      assert false;
    }
  }

  /** Session by session, then track by track. */
  predicate Precedes(x: Appearance, y: Appearance) {
    x.sessionIndex < y.sessionIndex || (x.sessionIndex == y.sessionIndex && x.trackIndex < y.trackIndex)
  }

  /** Within one side the appearances run session by session and, within a
      session, track by track. */
  lemma {:induction false} SideOrdered(side: CassetteSide, name: string, n: nat)
    requires n <= |side.sessions|
    ensures forall x, y :: 0 <= x < y < |SideAppearances(side, name, n)| ==>
      Precedes(SideAppearances(side, name, n)[x], SideAppearances(side, name, n)[y])
  {
    if n > 0 {
      SideOrdered(side, name, n - 1);
      var front, block := SideAppearances(side, name, n - 1), SessionAppearances(side, n - 1, name);
      forall x, y | 0 <= x < y < |front + block|
        ensures Precedes((front + block)[x], (front + block)[y])
      {
        if x < |front| && y >= |front| {
          SideMembers(side, name, n - 1, front[x]);
          assert front[x] in front;
        }
      }
    }
  }

  /** The roles of the person's entries in a list of sessions. */
  ghost function RolesIn(sessions: seq<Session>, name: string): set<string> {
    set s, p | s in sessions && p in s.sessionPersonnel && p.name == name :: p.role
  }

  /** The roles of the person's entries on a list of sides. */
  ghost function RolesOn(sides: seq<CassetteSide>, name: string): set<string> {
    set side, s, p | side in sides && s in side.sessions && p in s.sessionPersonnel && p.name == name :: p.role
  }

  lemma {:induction false} SideRolesExactly(side: CassetteSide, name: string, n: nat)
    requires n <= |side.sessions|
    ensures SideRoles(side, name, n) == RolesIn(side.sessions[..n], name)
  {
    if n > 0 {
      SideRolesExactly(side, name, n - 1);
      var s := side.sessions[n - 1];
      TakeSnoc(side.sessions, n - 1);
      assert RolesIn(side.sessions[..n], name) == RolesIn(side.sessions[..n - 1], name) + SessionRoles(s, name);
    }
  }

  lemma RolesOnSnoc(sides: seq<CassetteSide>, side: CassetteSide, name: string)
    ensures RolesOn(sides + [side], name) == RolesOn(sides, name) + RolesIn(side.sessions, name)
  {
  }

  /** `allRoles` holds exactly the roles of the person's session entries,
      also those of sessions without tracks. */
  lemma {:induction false} AllRolesExactly(sides: seq<CassetteSide>, name: string, m: nat)
    requires m <= |sides|
    ensures AllRoles(sides, name, m) == RolesOn(sides[..m], name)
  {
    if m > 0 {
      AllRolesExactly(sides, name, m - 1);
      var side := sides[m - 1];
      SideRolesExactly(side, name, |side.sessions|);
      assert side.sessions[..|side.sessions|] == side.sessions;
      TakeSnoc(sides, m - 1);
      RolesOnSnoc(sides[..m - 1], side, name);
    }
  }

  // ----- Statistics

  function FilenameOf(a: Appearance): string { a.side.filename }

  function AlbumOf(a: Appearance): string { a.side.metadata.albumTitle }

  /** `new Set(appearances.map(a => a.side.filename)).size` */
  function UniqueSides(appearances: seq<Appearance>): nat {
    |Image(appearances, FilenameOf)|
  }

  /** `new Set(appearances.map(a => a.side.metadata.album_title)).size` */
  function UniqueAlbums(appearances: seq<Appearance>): nat {
    |Image(appearances, AlbumOf)|
  }

  /** Neither distinct count exceeds the track count, and both are zero
      exactly when there are no appearances. */
  lemma StatsBounded(appearances: seq<Appearance>)
    ensures UniqueSides(appearances) <= |appearances|
    ensures UniqueAlbums(appearances) <= |appearances|
    ensures UniqueSides(appearances) == 0 <==> appearances == []
    ensures UniqueAlbums(appearances) == 0 <==> appearances == []
  {
    ImageCardinality(appearances, FilenameOf);
    ImageCardinality(appearances, AlbumOf);
  }

  // ----- Grouping by album

  function AlbumIs(title: string): Appearance -> bool {
    a => AlbumOf(a) == title
  }

  /** The appearances on album `title`, in their original order. */
  function InAlbum(appearances: seq<Appearance>, title: string): seq<Appearance> {
    Filter(appearances, AlbumIs(title))
  }

  lemma InAlbumSnoc(appearances: seq<Appearance>, i: nat, title: string)
    requires i < |appearances|
    ensures InAlbum(appearances[..i + 1], title) ==
      InAlbum(appearances[..i], title) + (if AlbumOf(appearances[i]) == title then [appearances[i]] else [])
  {
    TakeSnoc(appearances, i);
    FilterConcat(appearances[..i], [appearances[i]], AlbumIs(title));
    assert [appearances[i]][1..] == [];
  }

  /** The `reduce` into a record keyed by album title. */
  method GroupByAlbum(appearances: seq<Appearance>) returns (groups: map<string, seq<Appearance>>)
    ensures groups.Keys == set a | a in appearances :: AlbumOf(a)
    ensures forall t :: t in groups ==> groups[t] == InAlbum(appearances, t)
  {
    groups := map[];
    for i := 0 to |appearances|
      invariant groups.Keys == set a | a in appearances[..i] :: AlbumOf(a)
      invariant forall t :: t in groups ==> groups[t] == InAlbum(appearances[..i], t)
    {
      var a := appearances[i];
      var title := AlbumOf(a);
      var group := if title in groups then groups[title] else [];
      if title !in groups {
        InAlbumAbsent(appearances[..i], title);
      }
      InAlbumSnoc(appearances, i, title);
      groups := groups[title := group + [a]];
      forall t | t in groups && t != title
        ensures groups[t] == InAlbum(appearances[..i + 1], t)
      {
        InAlbumSnoc(appearances, i, t);
      }
      TakeSnoc(appearances, i);
      assert appearances[..i + 1] == appearances[..i] + [a];
    }
    assert appearances[..|appearances|] == appearances;
  }

  lemma InAlbumTitle(appearances: seq<Appearance>, title: string, a: Appearance)
    requires a in InAlbum(appearances, title)
    ensures title in set x | x in appearances :: AlbumOf(x)
  {
  }

  lemma InAlbumAbsent(appearances: seq<Appearance>, title: string)
    requires title !in set a | a in appearances :: AlbumOf(a)
    ensures InAlbum(appearances, title) == []
  {
    if InAlbum(appearances, title) != [] {
      InAlbumTitle(appearances, title, InAlbum(appearances, title)[0]);
      assert false;
    }
  }

  /** The groups partition the appearances: each lands in the group of its own
      album and in no other, every group is non-empty (its first appearance
      heads the album card), and a group keeps the original order. */
  lemma GroupsPartition(appearances: seq<Appearance>, groups: map<string, seq<Appearance>>)
    requires groups.Keys == set a | a in appearances :: AlbumOf(a)
    requires forall t :: t in groups ==> groups[t] == InAlbum(appearances, t)
    ensures forall a :: a in appearances ==> AlbumOf(a) in groups && a in groups[AlbumOf(a)]
    ensures forall t, a :: t in groups && a in groups[t] ==> a in appearances && AlbumOf(a) == t
    ensures forall t :: t in groups ==> groups[t] != []
  {
    forall t | t in groups
      ensures groups[t] != []
    {
      var a :| a in appearances && AlbumOf(a) == t;
      assert a in InAlbum(appearances, t);
    }
  }
}

=== FILE: projection.dfy ===
/** The relational-to-nested projection: side rows become `CassetteSide`
    documents holding their sessions, each session its personnel and tracks,
    each track its own credits. The spec functions say what the mapping
    produces; the methods build the same documents step by step, one loop per
    statement that is stepped through. */
module Projection {
  import opened Options
  import opened Seqs
  import opened Sorting
  import opened Text
  import opened Schema
  import opened Queries
  import opened Cassette
  import SessionDisplay
  import Fallback
  import FallbackShape

  // ---------------------------------------------------------------------
  // Reading a side object

  /** `String(obj[key] ?? default)` on a property that may be missing. */
  function StringOr(obj: Object<SideColumn>, key: SideColumn, default: string): (r: string)
    ensures key !in obj || obj[key] == SqlNull ==> r == default
    ensures key in obj && obj[key].SqlText? ==> r == obj[key].s
  {
    if key !in obj then default
    else match obj[key]
      case SqlNull => default
      case SqlText(s) => s
      case SqlInt(i) => IntToString(i)
  }

  /** `raw === 'B' ? 'B' : 'A'`. */
  function NormalizeSideLetter(raw: string): (l: SideLetter)
    ensures l == B <==> raw == "B"
  {
    if raw == "B" then B else A
  }

  /** `(value as string) || undefined`: an empty or NULL text is absent. */
  function NonEmpty(o: Option<string>): (r: Option<string>)
    ensures r.None? <==> o.None? || o.value == ""
    ensures r.Some? ==> r == o
  {
    if o.Some? && o.value != "" then o else None
  }

  /** The integer columns of a side object hold integers. */
  predicate SideObjectTyped(sr: Object<SideColumn>) {
    && SideIdCol in sr && sr[SideIdCol].SqlInt?
    && (HasAudioCol in sr ==> sr[HasAudioCol].SqlInt?)
  }

  /** `has_audio` is present only in rows of the richer query; there it is
      `Number(value) !== 0`, otherwise every side has audio. */
  function HasAudioOf(sr: Object<SideColumn>): (r: bool)
    requires SideObjectTyped(sr)
    ensures HasAudioCol !in sr ==> r
    ensures HasAudioCol in sr ==> (r <==> sr[HasAudioCol].i != 0)
  {
    if HasAudioCol in sr then sr[HasAudioCol].i != 0 else true
  }

  // ---------------------------------------------------------------------
  // The nested document, as functions of the tables

  /** `(value as string) || undefined` took `raw` to `r`: a NULL or empty
      text is dropped, any other text is kept as it is. */
  predicate KeptIfTruthy(raw: Option<string>, r: Option<string>) {
    && (r.None? <==> raw.None? || raw.value == "")
    && (r.Some? ==> r == raw)
  }

  /** One track row with its defaults; the credit list is set only when the
      track has credits, so "absent" and "empty" never meet. */
  function ProjectTrack(db: Database, t: TrackRow): (r: Track)
    ensures t.sequenceOrder.None? ==> r.sequence == 0
    ensures t.sequenceOrder.Some? ==> r.sequence == t.sequenceOrder.value
    ensures t.counterStart.None? ==> r.counterStart == 0
    ensures t.counterStart.Some? ==> r.counterStart == t.counterStart.value
    ensures t.title.None? ==> r.title == ""
    ensures t.title.Some? ==> r.title == t.title.value
    ensures t.durationMin.None? ==> r.durationMin == 0
    ensures t.durationMin.Some? ==> r.durationMin == t.durationMin.value
    ensures t.durationSec.None? ==> r.durationSec == 0
    ensures t.durationSec.Some? ==> r.durationSec == t.durationSec.value
    ensures KeptIfTruthy(t.trackArtistDisplay, r.artistDisplay)
    ensures KeptIfTruthy(t.vocalistDisplay, r.vocalistDisplay)
    ensures KeptIfTruthy(t.originalTextLine, r.originalText)
    ensures r.trackSpecificCredits.None? <==> TrackCreditQuery(db, t.id) == []
    ensures r.trackSpecificCredits.Some? ==> r.trackSpecificCredits.value == TrackCreditQuery(db, t.id)
  {
    var credits := TrackCreditQuery(db, t.id);
    Track(t.sequenceOrder.GetOr(0), t.counterStart.GetOr(0), t.title.GetOr(""),
      t.durationMin.GetOr(0), t.durationSec.GetOr(0),
      NonEmpty(t.trackArtistDisplay), NonEmpty(t.vocalistDisplay),
      if |credits| > 0 then Some(credits) else None,
      NonEmpty(t.originalTextLine))
  }

  function ProjectTracks(db: Database, sessionId: int): (r: seq<Track>)
    ensures |r| == |TrackQuery(db, sessionId)|
    ensures forall i :: 0 <= i < |r| ==> r[i] == ProjectTrack(db, TrackQuery(db, sessionId)[i])
  {
    Map(TrackQuery(db, sessionId), (t: TrackRow) => ProjectTrack(db, t))
  }

  /** A session row: the code kept as is (NULL stays null, "" stays ""),
      date and location dropped when empty. */
  function ProjectSession(db: Database, s: SessionRow): (r: Session)
    ensures r.sessionCode == s.sessionCode
    ensures KeptIfTruthy(s.sessionDate, r.sessionDate)
    ensures KeptIfTruthy(s.location, r.location)
    ensures r.sessionPersonnel == SessionPersonnelQuery(db, s.id)
    ensures |r.tracks| == |TrackQuery(db, s.id)|
    ensures forall i :: 0 <= i < |r.tracks| ==> r.tracks[i] == ProjectTrack(db, TrackQuery(db, s.id)[i])
  {
    Session(s.sessionCode, NonEmpty(s.sessionDate), NonEmpty(s.location),
      SessionPersonnelQuery(db, s.id), ProjectTracks(db, s.id))
  }

  function ProjectSessions(db: Database, sideId: int): (r: seq<Session>)
    ensures |r| == |SessionQuery(db, sideId)|
    ensures forall i :: 0 <= i < |r| ==> r[i] == ProjectSession(db, SessionQuery(db, sideId)[i])
  {
    Map(SessionQuery(db, sideId), (s: SessionRow) => ProjectSession(db, s))
  }

  /** A side read back from its result object, as the mapping loop does. */
  function SideFromObject(db: Database, sr: Object<SideColumn>): CassetteSide
    requires SideObjectTyped(sr)
  {
    CassetteSide(
      StringOr(sr, TapeNumberCol, ""),
      NormalizeSideLetter(StringOr(sr, SideLetterCol, "A")),
      StringOr(sr, FilenameCol, ""),
      Some(HasAudioOf(sr)),
      SideMetadata(
        StringOr(sr, AlbumTitleCol, ""), StringOr(sr, MainArtistCol, ""), StringOr(sr, GenreCol, ""),
        StringOr(sr, RecordDateDisplayCol, ""), StringOr(sr, AudioTypeCol, ""),
        StringOr(sr, DolbySettingCol, ""), StringOr(sr, TapeSelectorCol, ""),
        StringOr(sr, LibraryCatalogNoCol, "")),
      ProjectSessions(db, sr[SideIdCol].i))
  }

  /** The side a joined row stands for, stated on the typed row: the
      reference the object-reading code is proved against. */
  function ExpectedSide(db: Database, j: JoinedSide, withAudio: bool): (r: CassetteSide)
    ensures r.sideLetter == B <==> j.side.sideLetter == Some("B")
    ensures r.hasAudio == Some(true) <==> !withAudio || j.side.hasAudio.GetOr(1) != 0
    ensures r.tapeNumber == j.tapeNumber
  {
    var s := j.side;
    CassetteSide(
      j.tapeNumber,
      if s.sideLetter == Some("B") then B else A,
      s.filename.GetOr(""),
      Some(!withAudio || s.hasAudio.GetOr(1) != 0),
      SideMetadata(s.albumTitle.GetOr(""), s.mainArtist.GetOr(""), s.genre.GetOr(""),
        s.recordDateDisplay.GetOr(""), s.audioType.GetOr(""), s.dolbySetting.GetOr(""),
        s.tapeSelector.GetOr(""), s.libraryCatalogNo.GetOr("")),
      ProjectSessions(db, s.id))
  }

  /** The final sanity filter: a side needs a tape number and a filename. */
  predicate Keep(side: CassetteSide) {
    side.tapeNumber != "" && side.filename != ""
  }

  /** The side query that succeeds: the richer one, else the reduced one;
      `None` when both throw. */
  function SideResult(db: Database): (r: Option<seq<ResultSet<SideColumn>>>)
    ensures r.None? <==> !db.tablesPresent
    ensures r.Some? ==> r == ExecSideQuery(db, db.hasAudioColumn)
  {
    var rich := ExecSideQuery(db, true);
    if rich.Some? then rich else ExecSideQuery(db, false)
  }

  /** The sides read from the result objects, in row order. */
  function SidesFromObjects(db: Database, objs: seq<Object<SideColumn>>): (r: seq<CassetteSide>)
    requires forall i :: 0 <= i < |objs| ==> SideObjectTyped(objs[i])
    ensures |r| == |objs|
    ensures forall i :: 0 <= i < |objs| ==> r[i] == SideFromObject(db, objs[i])
  {
    seq(|objs|, i requires 0 <= i < |objs| && SideObjectTyped(objs[i]) => SideFromObject(db, objs[i]))
  }

  /** The properties of a side object hold the values selected for them. */
  predicate HoldsSide(obj: Object<SideColumn>, j: JoinedSide, withAudio: bool) {
    HoldsSideKeys(obj, j) && HoldsMetadata(obj, j) && HoldsTail(obj, j, withAudio)
  }

  predicate HoldsSideKeys(obj: Object<SideColumn>, j: JoinedSide) {
    && SideIdCol in obj && obj[SideIdCol] == SqlInt(j.side.id)
    && SideLetterCol in obj && obj[SideLetterCol] == OptText(j.side.sideLetter)
    && FilenameCol in obj && obj[FilenameCol] == OptText(j.side.filename)
  }

  predicate HoldsMetadata(obj: Object<SideColumn>, j: JoinedSide) {
    HoldsAlbum(obj, j) && HoldsFormat(obj, j)
  }

  predicate HoldsAlbum(obj: Object<SideColumn>, j: JoinedSide) {
    && GenreCol in obj && obj[GenreCol] == OptText(j.side.genre)
    && AlbumTitleCol in obj && obj[AlbumTitleCol] == OptText(j.side.albumTitle)
    && MainArtistCol in obj && obj[MainArtistCol] == OptText(j.side.mainArtist)
    && RecordDateDisplayCol in obj && obj[RecordDateDisplayCol] == OptText(j.side.recordDateDisplay)
  }

  predicate HoldsFormat(obj: Object<SideColumn>, j: JoinedSide) {
    && AudioTypeCol in obj && obj[AudioTypeCol] == OptText(j.side.audioType)
    && DolbySettingCol in obj && obj[DolbySettingCol] == OptText(j.side.dolbySetting)
    && TapeSelectorCol in obj && obj[TapeSelectorCol] == OptText(j.side.tapeSelector)
    && LibraryCatalogNoCol in obj && obj[LibraryCatalogNoCol] == OptText(j.side.libraryCatalogNo)
  }

  predicate HoldsTail(obj: Object<SideColumn>, j: JoinedSide, withAudio: bool) {
    && (HasAudioCol in obj <==> withAudio)
    && (withAudio ==> obj[HasAudioCol] == SqlInt(j.side.hasAudio.GetOr(1)))
    && TapeNumberCol in obj && obj[TapeNumberCol] == SqlText(j.tapeNumber)
  }

  /** The property named by each selected column holds the value selected
      for it: the column names of a side query are distinct. */
  lemma SideObjectLookup(j: JoinedSide, withAudio: bool)
    ensures forall i :: 0 <= i < |SideColumns(withAudio)| ==>
      && SideColumns(withAudio)[i] in RowObject(SideColumns(withAudio), SideValues(j, withAudio))
      && RowObject(SideColumns(withAudio), SideValues(j, withAudio))[SideColumns(withAudio)[i]]
         == SideValues(j, withAudio)[i]
  {
    var cols := SideColumns(withAudio);
    forall i | 0 <= i < |cols|
      ensures cols[i] in RowObject(cols, SideValues(j, withAudio))
    {
      assert cols[i] in cols;
    }
  }

  lemma ObjectHoldsKeys(j: JoinedSide, withAudio: bool)
    ensures HoldsSideKeys(RowObject(SideColumns(withAudio), SideValues(j, withAudio)), j)
  {
    SideColumnsAt(withAudio); SideValuesAt(j, withAudio); SideObjectLookup(j, withAudio);
  }

  lemma ObjectHoldsAlbum(j: JoinedSide, withAudio: bool)
    ensures HoldsAlbum(RowObject(SideColumns(withAudio), SideValues(j, withAudio)), j)
  {
    SideColumnsAt(withAudio); SideValuesAt(j, withAudio); SideObjectLookup(j, withAudio);
  }

  lemma ObjectHoldsFormat(j: JoinedSide, withAudio: bool)
    ensures HoldsFormat(RowObject(SideColumns(withAudio), SideValues(j, withAudio)), j)
  {
    SideColumnsAt(withAudio); SideValuesAt(j, withAudio); SideObjectLookup(j, withAudio);
  }

  lemma ObjectHoldsTail(j: JoinedSide, withAudio: bool)
    ensures HoldsTail(RowObject(SideColumns(withAudio), SideValues(j, withAudio)), j, withAudio)
  {
    SideColumnsAt(withAudio); SideValuesAt(j, withAudio); SideObjectLookup(j, withAudio);
  }

  lemma RowObjectHoldsSide(j: JoinedSide, withAudio: bool)
    ensures HoldsSide(RowObject(SideColumns(withAudio), SideValues(j, withAudio)), j, withAudio)
  {
    ObjectHoldsKeys(j, withAudio); ObjectHoldsAlbum(j, withAudio);
    ObjectHoldsFormat(j, withAudio); ObjectHoldsTail(j, withAudio);
  }

  lemma SideFromHeldObject(db: Database, obj: Object<SideColumn>, j: JoinedSide, withAudio: bool)
    requires HoldsSide(obj, j, withAudio)
    ensures SideObjectTyped(obj)
    ensures SideFromObject(db, obj) == ExpectedSide(db, j, withAudio)
  {
  }

  /** Reading a result object gives back exactly the side its typed row
      stands for: the column names are distinct, so every property holds the
      value selected for it. */
  lemma SideObjectRoundTrip(db: Database, j: JoinedSide, withAudio: bool)
    ensures SideObjectTyped(RowObject(SideColumns(withAudio), SideValues(j, withAudio)))
    ensures SideFromObject(db, RowObject(SideColumns(withAudio), SideValues(j, withAudio)))
      == ExpectedSide(db, j, withAudio)
  {
    RowObjectHoldsSide(j, withAudio);
    SideFromHeldObject(db, RowObject(SideColumns(withAudio), SideValues(j, withAudio)), j, withAudio);
  }

  /** Every object of a successful side query has integer id columns. */
  lemma SideObjectsTyped(db: Database, withAudio: bool)
    requires ExecSideQuery(db, withAudio).Some?
    ensures forall i :: 0 <= i < |ToObjects(ExecSideQuery(db, withAudio).value)| ==>
      SideObjectTyped(ToObjects(ExecSideQuery(db, withAudio).value)[i])
  {
    var result := ExecSideQuery(db, withAudio).value;
    var objs := ToObjects(result);
    forall i | 0 <= i < |objs| ensures SideObjectTyped(objs[i]) {
      var rs := result[0];
      assert rs.values[i] in rs.values;
      SideObjectRoundTrip(db, SideRows(db)[i], withAudio);
      assert objs[i] == RowObject(SideColumns(withAudio), SideValues(SideRows(db)[i], withAudio));
    }
  }

  /** What `tryMapCassetteSides` returns: the mapped, filtered sides, or
      nothing when a query throws. */
  function MappedSides(db: Database): (r: seq<CassetteSide>)
    ensures !db.tablesPresent ==> r == []
    ensures forall s :: s in r ==> Keep(s)
  {
    var result := SideResult(db);
    if result.None? then []
    else
      var objs := ToObjects(result.value);
      SideObjectsTyped(db, db.hasAudioColumn);
      Filter(SidesFromObjects(db, objs), Keep)
  }

  // ---------------------------------------------------------------------
  // What the mapping produces

  /** The sides of a successful mapping are the expected sides of the joined
      rows, in query order, less those the sanity filter drops. */
  lemma MappedSidesShape(db: Database)
    requires db.tablesPresent
    ensures MappedSides(db)
      == Filter(Map(SideRows(db), (j: JoinedSide) => ExpectedSide(db, j, db.hasAudioColumn)), Keep)
  {
    var w := db.hasAudioColumn;
    var rows := SideRows(db);
    var result := ExecSideQuery(db, w).value;
    var objs := ToObjects(result);
    SideObjectsTyped(db, w);
    var a := SidesFromObjects(db, objs);
    var b := Map(rows, (j: JoinedSide) => ExpectedSide(db, j, w));
    assert |a| == |b|;
    forall i | 0 <= i < |a| ensures a[i] == b[i] {
      var rs := result[0];
      assert rs.values[i] in rs.values;
      assert objs[i] == RowObject(SideColumns(w), SideValues(rows[i], w));
      SideObjectRoundTrip(db, rows[i], w);
    }
    assert a == b;
  }

  /** A mapped side is exactly a joined side row that passes the sanity
      filter, read as `ExpectedSide`. */
  lemma MappedSidesMembers(db: Database, s: CassetteSide)
    requires db.tablesPresent
    ensures s in MappedSides(db) <==>
      Keep(s) && exists j :: j in JoinTapes(db.sides, db.tapes) && s == ExpectedSide(db, j, db.hasAudioColumn)
  {
    var f := (j: JoinedSide) => ExpectedSide(db, j, db.hasAudioColumn);
    var b := Map(SideRows(db), f);
    MappedSidesShape(db);
    assert s in MappedSides(db) <==> s in b && Keep(s);
    MapMembers(SideRows(db), f, s);
  }

  /** Sides come out in ascending tape-number order (compared as text). */
  lemma MappedSidesOrdered(db: Database)
    ensures forall i, j :: 0 <= i < j < |MappedSides(db)| ==>
      StrLe(MappedSides(db)[i].tapeNumber, MappedSides(db)[j].tapeNumber)
  {
    if db.tablesPresent {
      MappedSidesShape(db);
      var rows := SideRows(db);
      var b := Map(rows, (j: JoinedSide) => ExpectedSide(db, j, db.hasAudioColumn));
      assert SortedBy(b, TapeLe) by {
        forall i, j | 0 <= i < j < |b| ensures TapeLe(b[i], b[j]) {
          assert SideKeyLe(rows[i], rows[j]);
        }
      }
      FilterSorted(b, Keep, TapeLe);
    }
  }

  predicate TapeLe(a: CassetteSide, b: CassetteSide) {
    StrLe(a.tapeNumber, b.tapeNumber)
  }

  /** `side_letter` is 'B' exactly when the raw value is "B"; `has_audio`
      follows the query that succeeded: the coalesced column in the richer
      one (NULL counts as audio), always true in the reduced one. */
  lemma MappedSideFlags(db: Database, s: CassetteSide)
    requires db.tablesPresent && s in MappedSides(db)
    ensures exists j :: (j in JoinTapes(db.sides, db.tapes) && s.tapeNumber == j.tapeNumber
      && (s.sideLetter == B <==> j.side.sideLetter == Some("B"))
      && s.hasAudio.Some?
      && (s.hasAudio.value <==> !db.hasAudioColumn || j.side.hasAudio.GetOr(1) != 0))
  {
    MappedSidesMembers(db, s);
    var j :| j in JoinTapes(db.sides, db.tapes) && s == ExpectedSide(db, j, db.hasAudioColumn);
  }

  /** On a database without the `has_audio` column every side has audio. */
  lemma ReducedQueryHasAudio(db: Database)
    requires !db.hasAudioColumn
    ensures forall s :: s in MappedSides(db) ==> s.hasAudio == Some(true)
  {
    forall s | s in MappedSides(db) ensures s.hasAudio == Some(true) {
      MappedSideFlags(db, s);
    }
  }

  /** A side's sessions are exactly its session rows, one document each. */
  lemma SideSessionsExactly(db: Database, sideId: int)
    ensures forall x :: x in ProjectSessions(db, sideId) <==>
      exists s :: s in db.sessions && s.sideId == sideId && x == ProjectSession(db, s)
    ensures |ProjectSessions(db, sideId)| == |Filter(db.sessions, (s: SessionRow) => s.sideId == sideId)|
  {
    var q := SessionQuery(db, sideId);
    forall x ensures x in ProjectSessions(db, sideId) <==>
      exists s :: s in db.sessions && s.sideId == sideId && x == ProjectSession(db, s)
    {
      MapMembers(q, (s: SessionRow) => ProjectSession(db, s), x);
    }
    assert |q| == |multiset(q)|;
  }

  /** A session's tracks are exactly its track rows, one document each. */
  lemma SessionTracksExactly(db: Database, sessionId: int)
    ensures forall x :: x in ProjectTracks(db, sessionId) <==>
      exists t :: t in db.tracks && t.sessionId == sessionId && x == ProjectTrack(db, t)
    ensures |ProjectTracks(db, sessionId)| == |Filter(db.tracks, (t: TrackRow) => t.sessionId == sessionId)|
  {
    var q := TrackQuery(db, sessionId);
    forall x ensures x in ProjectTracks(db, sessionId) <==>
      exists t :: t in db.tracks && t.sessionId == sessionId && x == ProjectTrack(db, t)
    {
      MapMembers(q, (t: TrackRow) => ProjectTrack(db, t), x);
    }
    assert |q| == |multiset(q)|;
  }

  /** Session personnel: one entry per session-level credit (track id NULL)
      joined to its person, with the role and source key defaults. */
  lemma SessionPersonnelMember(db: Database, sessionId: int, x: Personnel)
    ensures x in SessionPersonnelQuery(db, sessionId) <==>
      exists c, p :: c in db.credits && p in db.personnel && SessionLevel(c, sessionId)
        && p.id == c.personnelId && x == SessionEntry(c, p)
  {
    CreditJoinMembers(db.credits, db.personnel, (c: CreditRow) => SessionLevel(c, sessionId), SessionEntry, x);
  }

  /** With distinct person ids, one entry per session-level credit whose
      person exists. */
  lemma SessionPersonnelCount(db: Database, sessionId: int)
    requires UniquePersonIds(db.personnel)
    ensures |SessionPersonnelQuery(db, sessionId)|
      == |Filter(db.credits, (c: CreditRow) => SessionLevel(c, sessionId) && Names(db.personnel, c.personnelId))|
  {
    var r := SessionPersonnelQuery(db, sessionId);
    var keep := (c: CreditRow) => SessionLevel(c, sessionId);
    assert |r| == |multiset(r)|;
    CreditJoinCount(db.credits, db.personnel, keep, SessionEntry);
    FilterCongruent(db.credits, (c: CreditRow) => keep(c) && Names(db.personnel, c.personnelId),
      (c: CreditRow) => SessionLevel(c, sessionId) && Names(db.personnel, c.personnelId));
  }

  /** Track credits: every credit naming the track, whatever its session,
      joined to its person, without a source key. A credit naming both a
      session and a track is therefore listed on the track and never in the
      session's personnel. */
  lemma TrackCreditMember(db: Database, trackId: int, x: PersonnelCredit)
    ensures x in TrackCreditQuery(db, trackId) <==>
      exists c, p :: c in db.credits && p in db.personnel && c.trackId == Some(trackId)
        && p.id == c.personnelId && x == TrackEntry(c, p)
  {
    CreditJoinMembers(db.credits, db.personnel, (c: CreditRow) => TrackLevel(c, trackId), TrackEntry, x);
  }

  /** With distinct person ids, one credit per credit row naming the track
      whose person exists. */
  lemma TrackCreditCount(db: Database, trackId: int)
    requires UniquePersonIds(db.personnel)
    ensures |TrackCreditQuery(db, trackId)|
      == |Filter(db.credits, (c: CreditRow) => TrackLevel(c, trackId) && Names(db.personnel, c.personnelId))|
  {
    var r := TrackCreditQuery(db, trackId);
    var keep := (c: CreditRow) => TrackLevel(c, trackId);
    assert |r| == |multiset(r)|;
    CreditJoinCount(db.credits, db.personnel, keep, TrackEntry);
    FilterCongruent(db.credits, (c: CreditRow) => keep(c) && Names(db.personnel, c.personnelId),
      (c: CreditRow) => TrackLevel(c, trackId) && Names(db.personnel, c.personnelId));
  }

  /** A track's credit query is non-empty exactly when some credit of an
      existing person names the track. */
  lemma TrackCreditsNonEmpty(db: Database, trackId: int)
    ensures TrackCreditQuery(db, trackId) != []
      <==> exists c, p :: c in db.credits && p in db.personnel && c.trackId == Some(trackId) && p.id == c.personnelId
  {
    var r := TrackCreditQuery(db, trackId);
    if exists c, p :: c in db.credits && p in db.personnel && c.trackId == Some(trackId) && p.id == c.personnelId {
      var c, p :| c in db.credits && p in db.personnel && c.trackId == Some(trackId) && p.id == c.personnelId;
      TrackCreditMember(db, trackId, TrackEntry(c, p));
    }
    if r != [] {
      TrackCreditMember(db, trackId, r[0]);
    }
  }

  /** The credit list of a track is present, and shown, exactly when some
      credit of an existing person names the track. */
  lemma TrackCreditsPresence(db: Database, t: TrackRow)
    ensures ProjectTrack(db, t).trackSpecificCredits.Some?
      <==> exists c, p :: c in db.credits && p in db.personnel && c.trackId == Some(t.id) && p.id == c.personnelId
    ensures SessionDisplay.ShowsTrackCredits(ProjectTrack(db, t)) <==> ProjectTrack(db, t).trackSpecificCredits.Some?
  {
    TrackCreditsNonEmpty(db, t.id);
  }

  /** In a database that keeps the schema's constraints, every credit of an
      existing person is listed somewhere: on its track when it names one,
      otherwise among its session's personnel. The credit check (a session
      or a track is set) is what rules out a credit listed nowhere. */
  lemma EveryCreditListed(db: Database, c: CreditRow, p: PersonnelRow)
    requires WellFormed(db)
    requires c in db.credits && p in db.personnel && p.id == c.personnelId
    ensures c.trackId.Some? ==> TrackEntry(c, p) in TrackCreditQuery(db, c.trackId.value)
    ensures c.trackId.None? ==> c.sessionId.Some? && SessionEntry(c, p) in SessionPersonnelQuery(db, c.sessionId.value)
  {
    if c.trackId.Some? {
      TrackCreditMember(db, c.trackId.value, TrackEntry(c, p));
    } else {
      assert c.sessionId.Some?;
      assert SessionLevel(c, c.sessionId.value);
      SessionPersonnelMember(db, c.sessionId.value, SessionEntry(c, p));
    }
  }

  /** The personnel primary key gives the distinct ids the counting lemmas
      ask for. */
  lemma WellFormedPersonIds(db: Database)
    requires WellFormed(db)
    ensures UniquePersonIds(db.personnel)
  { }

  // ---------------------------------------------------------------------
  // The mapping loop

  /** Steps through the session-personnel statement, given the rows it
      yields, pushing one entry per row. */
  method CollectSessionPersonnel(rows: seq<Personnel>) returns (personnel: seq<Personnel>)
    ensures personnel == rows
  {
    personnel := [];
    var i := 0;
    while i < |rows|
      invariant 0 <= i <= |rows|
      invariant personnel == rows[..i]
    {
      var prow := rows[i];
      personnel := personnel + [Personnel(prow.name, prow.role, prow.sourceKey)];
      i := i + 1;
    }
  }

  /** Steps through the track-credit statement, given the rows it yields,
      pushing one credit per row. */
  method CollectTrackCredits(rows: seq<PersonnelCredit>) returns (tcredits: seq<PersonnelCredit>)
    ensures tcredits == rows
  {
    tcredits := [];
    var i := 0;
    while i < |rows|
      invariant 0 <= i <= |rows|
      invariant tcredits == rows[..i]
    {
      var crow := rows[i];
      tcredits := tcredits + [PersonnelCredit(crow.name, crow.role)];
      i := i + 1;
    }
  }

  /** One step of the track statement: the track is built without credits,
      and its credit list is attached only when it is non-empty. */
  method ReadTrack(db: Database, trow: TrackRow) returns (track: Track)
    ensures track == ProjectTrack(db, trow)
  {
    track := Track(trow.sequenceOrder.GetOr(0), trow.counterStart.GetOr(0), trow.title.GetOr(""),
      trow.durationMin.GetOr(0), trow.durationSec.GetOr(0),
      NonEmpty(trow.trackArtistDisplay), NonEmpty(trow.vocalistDisplay), None,
      NonEmpty(trow.originalTextLine));
    var tcredits := CollectTrackCredits(TrackCreditQuery(db, trow.id));
    if |tcredits| > 0 {
      track := track.(trackSpecificCredits := Some(tcredits));
    }
  }

  /** Steps through the track statement, given the rows it yields, one
      track per row. */
  method CollectTracks(db: Database, rows: seq<TrackRow>) returns (tracks: seq<Track>)
    ensures tracks == Map(rows, (t: TrackRow) => ProjectTrack(db, t))
  {
    ghost var expected := Map(rows, (t: TrackRow) => ProjectTrack(db, t));
    tracks := [];
    var i := 0;
    while i < |rows|
      invariant 0 <= i <= |rows| == |expected|
      invariant tracks == expected[..i]
    {
      var track := ReadTrack(db, rows[i]);
      TakeSnoc(expected, i);
      tracks := tracks + [track];
      i := i + 1;
    }
  }

  /** One step of the session statement: the session is built with no
      personnel and no tracks, which are attached afterwards. */
  method ReadSession(db: Database, srow: SessionRow) returns (session: Session)
    ensures session == ProjectSession(db, srow)
  {
    session := Session(srow.sessionCode, NonEmpty(srow.sessionDate), NonEmpty(srow.location), [], []);
    var personnel := CollectSessionPersonnel(SessionPersonnelQuery(db, srow.id));
    session := session.(sessionPersonnel := personnel);
    var tracks := CollectTracks(db, TrackQuery(db, srow.id));
    session := session.(tracks := tracks);
  }

  /** Steps through the session statement, given the rows it yields, one
      session per row. */
  method CollectSessions(db: Database, rows: seq<SessionRow>) returns (sessions: seq<Session>)
    ensures sessions == Map(rows, (s: SessionRow) => ProjectSession(db, s))
  {
    ghost var expected := Map(rows, (s: SessionRow) => ProjectSession(db, s));
    sessions := [];
    var i := 0;
    while i < |rows|
      invariant 0 <= i <= |rows| == |expected|
      invariant sessions == expected[..i]
    {
      var session := ReadSession(db, rows[i]);
      TakeSnoc(expected, i);
      sessions := sessions + [session];
      i := i + 1;
    }
  }

  /** The side query with its retry: the richer query first and, when it
      throws, the one without `has_audio`. */
  method RunSideQuery(db: Database) returns (result: Option<seq<ResultSet<SideColumn>>>)
    ensures result.None? <==> !db.tablesPresent
    ensures result.Some? ==> result == ExecSideQuery(db, db.hasAudioColumn)
  {
    result := ExecSideQuery(db, true);
    if result.None? {
      result := ExecSideQuery(db, false);
    }
  }

  /** One iteration of the side loop: the side is built from its object
      with no sessions, and its sessions are attached afterwards. */
  method ReadSide(db: Database, sr: Object<SideColumn>) returns (side: CassetteSide)
    requires SideObjectTyped(sr)
    ensures side == SideFromObject(db, sr)
  {
    side := CassetteSide(
      StringOr(sr, TapeNumberCol, ""),
      NormalizeSideLetter(StringOr(sr, SideLetterCol, "A")),
      StringOr(sr, FilenameCol, ""),
      Some(HasAudioOf(sr)),
      SideMetadata(
        StringOr(sr, AlbumTitleCol, ""), StringOr(sr, MainArtistCol, ""), StringOr(sr, GenreCol, ""),
        StringOr(sr, RecordDateDisplayCol, ""), StringOr(sr, AudioTypeCol, ""),
        StringOr(sr, DolbySettingCol, ""), StringOr(sr, TapeSelectorCol, ""),
        StringOr(sr, LibraryCatalogNoCol, "")),
      []);
    var sessions := CollectSessions(db, SessionQuery(db, sr[SideIdCol].i));
    side := side.(sessions := sessions);
  }

  /** The side loop: one side per result object, in row order. */
  method ReadSides(db: Database, sideRows: seq<Object<SideColumn>>) returns (all: seq<CassetteSide>)
    requires forall i :: 0 <= i < |sideRows| ==> SideObjectTyped(sideRows[i])
    ensures all == SidesFromObjects(db, sideRows)
  {
    ghost var expected := SidesFromObjects(db, sideRows);
    all := [];
    var i := 0;
    while i < |sideRows|
      invariant 0 <= i <= |sideRows| == |expected|
      invariant all == expected[..i]
    {
      var side := ReadSide(db, sideRows[i]);
      TakeSnoc(expected, i);
      all := all + [side];
      i := i + 1;
    }
  }

  /** `tryMapCassetteSides`: the sides read from the query that succeeded,
      then the sanity filter. When the retry throws too, no sides. */
  method TryMapCassetteSides(db: Database) returns (sides: seq<CassetteSide>)
    ensures sides == MappedSides(db)
  {
    var result := RunSideQuery(db);
    if result.None? {
      return [];
    }
    var sideRows := ToObjects(result.value);
    SideObjectsTyped(db, db.hasAudioColumn);
    var all := ReadSides(db, sideRows);
    sides := Filter(all, Keep);
  }

  // ---------------------------------------------------------------------
  // The fallback decision

  /** `getCassetteSides`: `None` stands for a database that could not be
      loaded. The mapped sides are served when there are any, the bundled
      catalog `fallback` otherwise; anything but the fallback is non-empty
      and has passed the sanity filter. */
  function GetCassetteSides(load: Option<Database>, fallback: seq<CassetteSide>): (r: seq<CassetteSide>)
    ensures load.Some? && MappedSides(load.value) != [] ==> r == MappedSides(load.value)
    ensures load.None? || MappedSides(load.value) == [] ==> r == fallback
    ensures r != fallback ==> r != [] && forall s :: s in r ==> Keep(s)
  {
    if load.None? then fallback
    else
      var mapped := MappedSides(load.value);
      if |mapped| > 0 then mapped else fallback
  }

  /** A database without the catalog tables makes every query throw; the
      mapping then yields nothing and the fallback is served. */
  lemma QueryFailureFallsBack(db: Database, fallback: seq<CassetteSide>)
    requires !db.tablesPresent
    ensures GetCassetteSides(Some(db), fallback) == fallback
  {
  }

  /** A side named after its tape survives the sanity filter. */
  lemma NamedSideKept(side: CassetteSide)
    requires FallbackShape.FilenameFollowsTape(side)
    ensures Keep(side)
  {
  }

  /** A non-empty fallback of sides named after their tapes makes every
      answer non-empty and filtered. The bundled catalog is such a fallback
      (`FallbackShape.CatalogServable`), so the page always receives at
      least one side, each with a tape number and a filename. */
  lemma ServedFrom(load: Option<Database>, fallback: seq<CassetteSide>)
    requires |fallback| > 0
    requires forall i :: 0 <= i < |fallback| ==> FallbackShape.FilenameFollowsTape(fallback[i])
    ensures GetCassetteSides(load, fallback) != []
    ensures forall s :: s in GetCassetteSides(load, fallback) ==> Keep(s)
  {
    forall s | s in fallback
      ensures Keep(s)
    {
      var i :| 0 <= i < |fallback| && fallback[i] == s;
      NamedSideKept(s);
    }
  }
}

=== FILE: queries.dfy ===
/** The SQL the projection runs, each statement as the filter, join, COALESCE
    and ORDER BY it states, and the sql.js result shape (`exec` result sets
    turned into plain objects by `toObjects`). A query against a database
    without the catalog tables fails; the statement functions below are only
    consulted once that check has passed. */
module Queries {
  import opened Options
  import opened Seqs
  import opened Sorting
  import opened Schema
  import opened Cassette

  // ---------------------------------------------------------------------
  // sql.js values, result sets and `toObjects`

  datatype SqlValue = SqlNull | SqlInt(i: int) | SqlText(s: string)

  /** One result set of `Database.exec`: column names and rows of values.
      Column names are the aliases a query selects, modelled as an
      enumeration `K` per query rather than as text. */
  datatype ResultSet<K> = ResultSet(columns: seq<K>, values: seq<seq<SqlValue>>)

  type Object<K> = map<K, SqlValue>

  function OptText(o: Option<string>): (v: SqlValue)
    ensures v == SqlNull <==> o.None?
  {
    if o.Some? then SqlText(o.value) else SqlNull
  }

  /** The position of the last occurrence of `c`. */
  function LastIndex<K(==)>(columns: seq<K>, c: K): (i: nat)
    requires c in columns
    ensures i < |columns| && columns[i] == c && c !in columns[i + 1..]
    decreases |columns|
  {
    var n := |columns| - 1;
    if columns[n] == c then n
    else
      assert c in columns[..n] by {
        var k :| 0 <= k < |columns| && columns[k] == c;
        assert columns[..n][k] == c;
      }
      var i := LastIndex(columns[..n], c);
      assert columns[i + 1..] == columns[..n][i + 1..] + [columns[n]];
      i
  }

  /** `Object.fromEntries(columns.map((c, i) => [c, row[i]]))`: one key per
      column, and a repeated column name keeps its last value. */
  function RowObject<K(==)>(columns: seq<K>, row: seq<SqlValue>): (obj: Object<K>)
    requires |row| == |columns|
    ensures obj.Keys == set c | c in columns
    ensures forall i :: 0 <= i < |columns| && columns[i] !in columns[i + 1..] ==> obj[columns[i]] == row[i]
  {
    var obj := map c | c in columns :: row[LastIndex(columns, c)];
    assert forall i :: 0 <= i < |columns| && columns[i] !in columns[i + 1..] ==> LastIndex(columns, columns[i]) == i by {
      forall i | 0 <= i < |columns| && columns[i] !in columns[i + 1..]
        ensures LastIndex(columns, columns[i]) == i
      {
        var j := LastIndex(columns, columns[i]);
      }
    }
    obj
  }

  /** Every row of the result set has one value per column (what sql.js
      produces). */
  predicate RowsFit<K>(rs: ResultSet<K>) {
    forall r :: r in rs.values ==> |r| == |rs.columns|
  }

  /** `toObjects`: no result set gives no objects; otherwise one object per
      row of the first result set, keyed by its column names. */
  function ToObjects<K(==)>(result: seq<ResultSet<K>>): (objs: seq<Object<K>>)
    requires result != [] ==> RowsFit(result[0])
    ensures result == [] ==> objs == []
    ensures result != [] ==> |objs| == |result[0].values|
    ensures result != [] ==> forall i :: 0 <= i < |objs| ==>
      objs[i].Keys == set c | c in result[0].columns
    ensures result != [] ==> forall i, k ::
      (0 <= i < |objs| && 0 <= k < |result[0].columns| && result[0].columns[k] !in result[0].columns[k + 1..])
      ==> objs[i][result[0].columns[k]] == result[0].values[i][k]
  {
    if result == [] then []
    else
      var rs := result[0];
      seq(|rs.values|, i requires 0 <= i < |rs.values| && RowsFit(rs) =>
        assert rs.values[i] in rs.values;
        RowObject(rs.columns, rs.values[i]))
  }

  // ---------------------------------------------------------------------
  // The side query: sides JOIN tapes ORDER BY tape_number, side_letter

  /** A side row with the tape number of its tape. */
  datatype JoinedSide = JoinedSide(side: SideRow, tapeNumber: string)

  /** `FROM sides s JOIN tapes t ON t.id = s.tape_id`, in side order. */
  function JoinTapes(sides: seq<SideRow>, tapes: seq<TapeRow>): seq<JoinedSide> {
    if sides == [] then []
    else
      Map(Filter(tapes, (t: TapeRow) => t.id == sides[0].tapeId), (t: TapeRow) => JoinedSide(sides[0], t.tapeNumber))
        + JoinTapes(sides[1..], tapes)
  }

  /** The join pairs each side with each tape it names, and nothing else: a
      side whose tape is missing drops out. */
  lemma {:induction false} JoinTapesMembers(sides: seq<SideRow>, tapes: seq<TapeRow>, j: JoinedSide)
    ensures j in JoinTapes(sides, tapes) <==>
      j.side in sides && exists t :: t in tapes && t.id == j.side.tapeId && t.tapeNumber == j.tapeNumber
  {
    if sides != [] {
      JoinTapesMembers(sides[1..], tapes, j);
      var here := Map(Filter(tapes, (t: TapeRow) => t.id == sides[0].tapeId), (t: TapeRow) => JoinedSide(sides[0], t.tapeNumber));
      assert sides == [sides[0]] + sides[1..];
      if j in here {
        var k :| 0 <= k < |here| && here[k] == j;
        var t := Filter(tapes, (t: TapeRow) => t.id == sides[0].tapeId)[k];
        assert t in tapes && t.id == j.side.tapeId && t.tapeNumber == j.tapeNumber;
      }
      if j.side == sides[0] && (exists t :: t in tapes && t.id == j.side.tapeId && t.tapeNumber == j.tapeNumber) {
        var t :| t in tapes && t.id == j.side.tapeId && t.tapeNumber == j.tapeNumber;
        var f := Filter(tapes, (t: TapeRow) => t.id == sides[0].tapeId);
        assert t in f;
        var k :| 0 <= k < |f| && f[k] == t;
        assert here[k] == j;
      }
    }
  }

  /** `ORDER BY t.tape_number, s.side_letter`. */
  predicate SideKeyLe(a: JoinedSide, b: JoinedSide) {
    StrLe(a.tapeNumber, b.tapeNumber)
    && (a.tapeNumber == b.tapeNumber ==> OptStrLe(a.side.sideLetter, b.side.sideLetter))
  }

  lemma OptStrLeTotal(a: Option<string>, b: Option<string>)
    ensures OptStrLe(a, b) || OptStrLe(b, a)
  {
    if a.Some? && b.Some? {
      StrLeTotal(a.value, b.value);
    }
  }

  lemma OptStrLeTransitive(a: Option<string>, b: Option<string>, c: Option<string>)
    requires OptStrLe(a, b) && OptStrLe(b, c)
    ensures OptStrLe(a, c)
  {
    if a.Some? {
      StrLeTransitive(a.value, b.value, c.value);
    }
  }

  lemma SideKeyTotalPreorder()
    ensures TotalPreorder(SideKeyLe)
  {
    forall a: JoinedSide, b: JoinedSide ensures SideKeyLe(a, b) || SideKeyLe(b, a) {
      StrLeTotal(a.tapeNumber, b.tapeNumber);
      OptStrLeTotal(a.side.sideLetter, b.side.sideLetter);
      if StrLe(a.tapeNumber, b.tapeNumber) && StrLe(b.tapeNumber, a.tapeNumber) {
        StrLeAntisymmetric(a.tapeNumber, b.tapeNumber);
      }
    }
    forall a: JoinedSide, b: JoinedSide, c: JoinedSide | SideKeyLe(a, b) && SideKeyLe(b, c)
      ensures SideKeyLe(a, c)
    {
      StrLeTransitive(a.tapeNumber, b.tapeNumber, c.tapeNumber);
      if a.tapeNumber == c.tapeNumber {
        StrLeAntisymmetric(a.tapeNumber, b.tapeNumber);
        OptStrLeTransitive(a.side.sideLetter, b.side.sideLetter, c.side.sideLetter);
      }
    }
  }

  /** The joined side rows in query order. */
  function SideRows(db: Database): (rows: seq<JoinedSide>)
    ensures SortedBy(rows, SideKeyLe)
    ensures multiset(rows) == multiset(JoinTapes(db.sides, db.tapes))
    ensures forall j :: j in rows <==> j in JoinTapes(db.sides, db.tapes)
  {
    SideKeyTotalPreorder();
    Sorted(JoinTapes(db.sides, db.tapes), SideKeyLe)
  }

  /** The aliases the side queries select. */
  datatype SideColumn =
    | SideIdCol | SideLetterCol | FilenameCol | GenreCol | AlbumTitleCol | MainArtistCol
    | RecordDateDisplayCol | AudioTypeCol | DolbySettingCol | TapeSelectorCol | LibraryCatalogNoCol
    | HasAudioCol | TapeNumberCol

  /** The selected columns; the richer query adds `has_audio` before
      `tape_number`. */
  function SideColumns(withAudio: bool): (cols: seq<SideColumn>)
    ensures |cols| == if withAudio then 13 else 12
    ensures HasAudioCol in cols <==> withAudio
    ensures forall i :: 0 <= i < |cols| ==> cols[i] !in cols[i + 1..]
  {
    if withAudio then
      [SideIdCol, SideLetterCol, FilenameCol, GenreCol, AlbumTitleCol, MainArtistCol,
       RecordDateDisplayCol, AudioTypeCol, DolbySettingCol, TapeSelectorCol, LibraryCatalogNoCol,
       HasAudioCol, TapeNumberCol]
    else
      [SideIdCol, SideLetterCol, FilenameCol, GenreCol, AlbumTitleCol, MainArtistCol,
       RecordDateDisplayCol, AudioTypeCol, DolbySettingCol, TapeSelectorCol, LibraryCatalogNoCol,
       TapeNumberCol]
  }

  /** One selected row; `COALESCE(s.has_audio, 1)` in the richer query. */
  function SideValues(j: JoinedSide, withAudio: bool): (vals: seq<SqlValue>)
    ensures |vals| == |SideColumns(withAudio)|
  {
    var s := j.side;
    if withAudio then
      [SqlInt(s.id), OptText(s.sideLetter), OptText(s.filename), OptText(s.genre), OptText(s.albumTitle),
       OptText(s.mainArtist), OptText(s.recordDateDisplay), OptText(s.audioType), OptText(s.dolbySetting),
       OptText(s.tapeSelector), OptText(s.libraryCatalogNo), SqlInt(s.hasAudio.GetOr(1)), SqlText(j.tapeNumber)]
    else
      [SqlInt(s.id), OptText(s.sideLetter), OptText(s.filename), OptText(s.genre), OptText(s.albumTitle),
       OptText(s.mainArtist), OptText(s.recordDateDisplay), OptText(s.audioType), OptText(s.dolbySetting),
       OptText(s.tapeSelector), OptText(s.libraryCatalogNo), SqlText(j.tapeNumber)]
  }

  /** The position of each selected column. */
  lemma SideColumnsAt(withAudio: bool)
    ensures SideColumns(withAudio)[0] == SideIdCol && SideColumns(withAudio)[1] == SideLetterCol
    ensures SideColumns(withAudio)[2] == FilenameCol && SideColumns(withAudio)[3] == GenreCol
    ensures SideColumns(withAudio)[4] == AlbumTitleCol && SideColumns(withAudio)[5] == MainArtistCol
    ensures SideColumns(withAudio)[6] == RecordDateDisplayCol && SideColumns(withAudio)[7] == AudioTypeCol
    ensures SideColumns(withAudio)[8] == DolbySettingCol && SideColumns(withAudio)[9] == TapeSelectorCol
    ensures SideColumns(withAudio)[10] == LibraryCatalogNoCol
    ensures withAudio ==> SideColumns(withAudio)[11] == HasAudioCol
    ensures SideColumns(withAudio)[|SideColumns(withAudio)| - 1] == TapeNumberCol
  {
  }

  /** The value selected for each column position. */
  lemma SideValuesAt(j: JoinedSide, withAudio: bool)
    ensures SideValues(j, withAudio)[0] == SqlInt(j.side.id)
    ensures SideValues(j, withAudio)[1] == OptText(j.side.sideLetter)
    ensures SideValues(j, withAudio)[2] == OptText(j.side.filename)
    ensures SideValues(j, withAudio)[3] == OptText(j.side.genre)
    ensures SideValues(j, withAudio)[4] == OptText(j.side.albumTitle)
    ensures SideValues(j, withAudio)[5] == OptText(j.side.mainArtist)
    ensures SideValues(j, withAudio)[6] == OptText(j.side.recordDateDisplay)
    ensures SideValues(j, withAudio)[7] == OptText(j.side.audioType)
    ensures SideValues(j, withAudio)[8] == OptText(j.side.dolbySetting)
    ensures SideValues(j, withAudio)[9] == OptText(j.side.tapeSelector)
    ensures SideValues(j, withAudio)[10] == OptText(j.side.libraryCatalogNo)
    ensures withAudio ==> SideValues(j, withAudio)[11] == SqlInt(j.side.hasAudio.GetOr(1))
    ensures SideValues(j, withAudio)[|SideValues(j, withAudio)| - 1] == SqlText(j.tapeNumber)
  {
  }

  /** `db.exec` of a side query: `None` when it throws (no catalog tables,
      or the richer query on a database without `has_audio`); no result set
      when no row matches; otherwise one result set with one row per joined
      side, in query order. */
  function ExecSideQuery(db: Database, withAudio: bool): (r: Option<seq<ResultSet<SideColumn>>>)
    ensures r.None? <==> !db.tablesPresent || (withAudio && !db.hasAudioColumn)
    ensures r.Some? ==> (r.value == [] <==> SideRows(db) == [])
    ensures r.Some? && r.value != [] ==>
      && |r.value| == 1 && RowsFit(r.value[0])
      && r.value[0].columns == SideColumns(withAudio)
      && |r.value[0].values| == |SideRows(db)|
      && forall i :: 0 <= i < |SideRows(db)| ==> r.value[0].values[i] == SideValues(SideRows(db)[i], withAudio)
  {
    if !db.tablesPresent || (withAudio && !db.hasAudioColumn) then None
    else
      var rows := SideRows(db);
      if rows == [] then Some([])
      else Some([ResultSet(SideColumns(withAudio), Map(rows, (j: JoinedSide) => SideValues(j, withAudio)))])
  }

  // ---------------------------------------------------------------------
  // Prepared statements

  predicate SessionIdLe(a: SessionRow, b: SessionRow) {
    a.id <= b.id
  }

  /** `SELECT ... FROM sessions WHERE side_id = ? ORDER BY id`. */
  function SessionQuery(db: Database, sideId: int): (r: seq<SessionRow>)
    ensures forall s :: s in r <==> s in db.sessions && s.sideId == sideId
    ensures SortedBy(r, SessionIdLe)
    ensures multiset(r) == multiset(Filter(db.sessions, (s: SessionRow) => s.sideId == sideId))
  {
    Sorted(Filter(db.sessions, (s: SessionRow) => s.sideId == sideId), SessionIdLe)
  }

  /** `COALESCE(c.role, COALESCE(p.instrument_primary, ''))`. */
  function CreditRole(c: CreditRow, p: PersonnelRow): (role: string)
    ensures c.role.Some? ==> role == c.role.value
    ensures c.role.None? && p.instrumentPrimary.Some? ==> role == p.instrumentPrimary.value
    ensures c.role.None? && p.instrumentPrimary.None? ==> role == ""
  {
    c.role.GetOr(p.instrumentPrimary.GetOr(""))
  }

  /** `FROM credits c JOIN personnel p ON p.id = c.personnel_id WHERE keep(c)`,
      one output row `make(c, p)` per matching pair, in credit order. */
  function CreditJoin<R>(credits: seq<CreditRow>, personnel: seq<PersonnelRow>,
                         keep: CreditRow -> bool, make: (CreditRow, PersonnelRow) -> R): seq<R>
  {
    if credits == [] then []
    else
      var c := credits[0];
      (if keep(c) then Map(Filter(personnel, (p: PersonnelRow) => p.id == c.personnelId), (p: PersonnelRow) => make(c, p))
       else [])
      + CreditJoin(credits[1..], personnel, keep, make)
  }

  /** The join yields exactly the rows built from a kept credit and the
      person it names. */
  lemma {:induction false} CreditJoinMembers<R>(credits: seq<CreditRow>, personnel: seq<PersonnelRow>,
                                                keep: CreditRow -> bool, make: (CreditRow, PersonnelRow) -> R, x: R)
    ensures x in CreditJoin(credits, personnel, keep, make) <==>
      exists c, p :: c in credits && p in personnel && keep(c) && p.id == c.personnelId && x == make(c, p)
  {
    if credits != [] {
      var c := credits[0];
      CreditJoinMembers(credits[1..], personnel, keep, make, x);
      assert credits == [c] + credits[1..];
      var f := Filter(personnel, (p: PersonnelRow) => p.id == c.personnelId);
      if keep(c) {
        MapMembers(f, (p: PersonnelRow) => make(c, p), x);
      }
    }
  }

  /** Person ids are distinct. */
  predicate UniquePersonIds(personnel: seq<PersonnelRow>) {
    forall i, j :: 0 <= i < j < |personnel| ==> personnel[i].id != personnel[j].id
  }

  predicate Names(personnel: seq<PersonnelRow>, id: int) {
    exists p :: p in personnel && p.id == id
  }

  lemma {:induction false} OnePersonPerId(personnel: seq<PersonnelRow>, id: int)
    requires UniquePersonIds(personnel)
    ensures |Filter(personnel, (p: PersonnelRow) => p.id == id)| == if Names(personnel, id) then 1 else 0
  {
    if personnel != [] {
      var rest := personnel[1..];
      assert UniquePersonIds(rest) by {
        forall i, j | 0 <= i < j < |rest| ensures rest[i].id != rest[j].id {
          assert rest[i] == personnel[i + 1] && rest[j] == personnel[j + 1];
        }
      }
      OnePersonPerId(rest, id);
      assert personnel == [personnel[0]] + rest;
      if personnel[0].id == id {
        forall p | p in rest ensures p.id != id {
          var k :| 0 <= k < |rest| && rest[k] == p;
          assert personnel[k + 1] == p;
        }
      } else {
        if Names(personnel, id) {
          var p :| p in personnel && p.id == id;
          assert p in rest;
        }
      }
    }
  }

  /** With distinct person ids, the join has one row per kept credit whose
      person exists. */
  lemma {:induction false} CreditJoinCount<R>(credits: seq<CreditRow>, personnel: seq<PersonnelRow>,
                                              keep: CreditRow -> bool, make: (CreditRow, PersonnelRow) -> R)
    requires UniquePersonIds(personnel)
    ensures |CreditJoin(credits, personnel, keep, make)|
      == |Filter(credits, (c: CreditRow) => keep(c) && Names(personnel, c.personnelId))|
  {
    if credits != [] {
      var c := credits[0];
      CreditJoinCount(credits[1..], personnel, keep, make);
      OnePersonPerId(personnel, c.personnelId);
    }
  }

  /** The row a session-level credit contributes to `session_personnel`. */
  function SessionEntry(c: CreditRow, p: PersonnelRow): Personnel {
    Personnel(p.name, CreditRole(c, p), c.sourceKey.GetOr(""))
  }

  /** `WHERE c.session_id = ? AND c.track_id IS NULL`. */
  predicate SessionLevel(c: CreditRow, sessionId: int) {
    c.sessionId == Some(sessionId) && c.trackId.None?
  }

  predicate PersonnelNameLe(a: Personnel, b: Personnel) {
    StrLe(a.name, b.name)
  }

  predicate CreditNameLe(a: PersonnelCredit, b: PersonnelCredit) {
    StrLe(a.name, b.name)
  }

  lemma NameOrdersPreorder()
    ensures TotalPreorder(PersonnelNameLe)
    ensures TotalPreorder(CreditNameLe)
  {
    forall a: Personnel, b: Personnel ensures PersonnelNameLe(a, b) || PersonnelNameLe(b, a) {
      StrLeTotal(a.name, b.name);
    }
    forall a: Personnel, b: Personnel, c: Personnel | PersonnelNameLe(a, b) && PersonnelNameLe(b, c)
      ensures PersonnelNameLe(a, c)
    {
      StrLeTransitive(a.name, b.name, c.name);
    }
    forall a: PersonnelCredit, b: PersonnelCredit ensures CreditNameLe(a, b) || CreditNameLe(b, a) {
      StrLeTotal(a.name, b.name);
    }
    forall a: PersonnelCredit, b: PersonnelCredit, c: PersonnelCredit | CreditNameLe(a, b) && CreditNameLe(b, c)
      ensures CreditNameLe(a, c)
    {
      StrLeTransitive(a.name, b.name, c.name);
    }
  }

  /** The session-level personnel statement, ordered by name. */
  function SessionPersonnelQuery(db: Database, sessionId: int): (r: seq<Personnel>)
    ensures SortedBy(r, PersonnelNameLe)
    ensures multiset(r) == multiset(CreditJoin(db.credits, db.personnel,
      (c: CreditRow) => SessionLevel(c, sessionId), SessionEntry))
    ensures forall x :: x in r <==> x in CreditJoin(db.credits, db.personnel,
      (c: CreditRow) => SessionLevel(c, sessionId), SessionEntry)
  {
    NameOrdersPreorder();
    Sorted(CreditJoin(db.credits, db.personnel, (c: CreditRow) => SessionLevel(c, sessionId), SessionEntry),
      PersonnelNameLe)
  }

  /** The row a credit contributes to `track_specific_credits`: no source key. */
  function TrackEntry(c: CreditRow, p: PersonnelRow): PersonnelCredit {
    PersonnelCredit(p.name, CreditRole(c, p))
  }

  /** `WHERE c.track_id = ?`, whatever the credit's session. */
  predicate TrackLevel(c: CreditRow, trackId: int) {
    c.trackId == Some(trackId)
  }

  /** The track credit statement, ordered by name. */
  function TrackCreditQuery(db: Database, trackId: int): (r: seq<PersonnelCredit>)
    ensures SortedBy(r, CreditNameLe)
    ensures multiset(r) == multiset(CreditJoin(db.credits, db.personnel,
      (c: CreditRow) => TrackLevel(c, trackId), TrackEntry))
    ensures forall x :: x in r <==> x in CreditJoin(db.credits, db.personnel,
      (c: CreditRow) => TrackLevel(c, trackId), TrackEntry)
  {
    NameOrdersPreorder();
    Sorted(CreditJoin(db.credits, db.personnel, (c: CreditRow) => TrackLevel(c, trackId), TrackEntry),
      CreditNameLe)
  }

  /** `ORDER BY sequence_order, id`, NULL sequence first. */
  predicate TrackKeyLe(a: TrackRow, b: TrackRow) {
    OptIntLe(a.sequenceOrder, b.sequenceOrder)
    && (a.sequenceOrder == b.sequenceOrder ==> a.id <= b.id)
  }

  lemma TrackKeyTotalPreorder()
    ensures TotalPreorder(TrackKeyLe)
  {
  }

  /** `SELECT ... FROM tracks WHERE session_id = ? ORDER BY sequence_order, id`. */
  function TrackQuery(db: Database, sessionId: int): (r: seq<TrackRow>)
    ensures forall t :: t in r <==> t in db.tracks && t.sessionId == sessionId
    ensures SortedBy(r, TrackKeyLe)
    ensures multiset(r) == multiset(Filter(db.tracks, (t: TrackRow) => t.sessionId == sessionId))
  {
    TrackKeyTotalPreorder();
    Sorted(Filter(db.tracks, (t: TrackRow) => t.sessionId == sessionId), TrackKeyLe)
  }
}

=== FILE: schema.dfy ===
/** The six tables of the catalog database, one row type per table. A SQL
    NULL is `None`; a column the schema declares NOT NULL is a plain value. */
module Schema {
  import opened Options

  datatype TapeRow = TapeRow(id: int, tapeNumber: string)

  /** `hasAudio` is read only when the database has that column (see
      `Database.hasAudioColumn`). */
  datatype SideRow = SideRow(
    id: int,
    tapeId: int,
    sideLetter: Option<string>,
    filename: Option<string>,
    genre: Option<string>,
    albumTitle: Option<string>,
    mainArtist: Option<string>,
    recordDateDisplay: Option<string>,
    audioType: Option<string>,
    dolbySetting: Option<string>,
    tapeSelector: Option<string>,
    libraryCatalogNo: Option<string>,
    hasAudio: Option<int>)

  datatype SessionRow = SessionRow(
    id: int,
    sideId: int,
    sessionCode: Option<string>,
    sessionDate: Option<string>,
    location: Option<string>)

  datatype TrackRow = TrackRow(
    id: int,
    sessionId: int,
    sequenceOrder: Option<int>,
    title: Option<string>,
    counterStart: Option<int>,
    durationMin: Option<nat>,
    durationSec: Option<nat>,
    trackArtistDisplay: Option<string>,
    vocalistDisplay: Option<string>,
    originalTextLine: Option<string>)

  datatype PersonnelRow = PersonnelRow(id: int, name: string, instrumentPrimary: Option<string>)

  /** A credit names a session, a track, or both. */
  datatype CreditRow = CreditRow(
    id: int,
    personnelId: int,
    sessionId: Option<int>,
    trackId: Option<int>,
    role: Option<string>,
    sourceKey: Option<string>)

  /** A loaded database. `tablesPresent` is false when the file lacks the
      catalog tables, so that every query against it fails; `hasAudioColumn`
      says whether `sides` carries the optional `has_audio` column. */
  datatype Database = Database(
    tapes: seq<TapeRow>,
    sides: seq<SideRow>,
    sessions: seq<SessionRow>,
    tracks: seq<TrackRow>,
    personnel: seq<PersonnelRow>,
    credits: seq<CreditRow>,
    hasAudioColumn: bool,
    tablesPresent: bool)

  /** The table constraints of the schema: primary keys, the unique tape
      number, personnel name and (non-NULL) filename, and the credit check
      that at least one of its two targets is set. */
  predicate WellFormed(db: Database) {
    && (forall i, j :: 0 <= i < j < |db.tapes| ==>
          db.tapes[i].id != db.tapes[j].id && db.tapes[i].tapeNumber != db.tapes[j].tapeNumber)
    && (forall i, j :: 0 <= i < j < |db.sides| ==>
          db.sides[i].id != db.sides[j].id
          && (db.sides[i].filename.Some? ==> db.sides[i].filename != db.sides[j].filename))
    && (forall i, j :: 0 <= i < j < |db.sessions| ==> db.sessions[i].id != db.sessions[j].id)
    && (forall i, j :: 0 <= i < j < |db.tracks| ==> db.tracks[i].id != db.tracks[j].id)
    && (forall i, j :: 0 <= i < j < |db.personnel| ==>
          db.personnel[i].id != db.personnel[j].id && db.personnel[i].name != db.personnel[j].name)
    && (forall i, j :: 0 <= i < j < |db.credits| ==> db.credits[i].id != db.credits[j].id)
    && (forall c :: c in db.credits ==> c.sessionId.Some? || c.trackId.Some?)
  }
}

=== FILE: seqs.dfy ===
/** Order-preserving sequence operations: the `filter`, `map` and nested
    `forEach` shapes that the projection and the views are built from. */
module Seqs {

  /** Keeps, in order, the elements that satisfy `p` (JavaScript `Array.filter`,
      a SQL `WHERE`). */
  function Filter<T(!new)>(s: seq<T>, p: T -> bool): (r: seq<T>)
    ensures |r| <= |s|
    ensures forall x :: x in r <==> x in s && p(x)
  {
    if s == [] then []
    else
      assert s == [s[0]] + s[1..];
      (if p(s[0]) then [s[0]] else []) + Filter(s[1..], p)
  }

  /** Filtering distributes over concatenation: relative order is kept. */
  lemma {:induction false} FilterConcat<T(!new)>(a: seq<T>, b: seq<T>, p: T -> bool)
    ensures Filter(a + b, p) == Filter(a, p) + Filter(b, p)
  {
    if a == [] {
      assert a + b == b;
    } else {
      assert (a + b)[0] == a[0];
      assert (a + b)[1..] == a[1..] + b;
      FilterConcat(a[1..], b, p);
    }
  }

  /** A filter that every element passes changes nothing. */
  lemma {:induction false} FilterKeepsAll<T(!new)>(s: seq<T>, p: T -> bool)
    requires forall i :: 0 <= i < |s| ==> p(s[i])
    ensures Filter(s, p) == s
  {
    if s != [] {
      FilterKeepsAll(s[1..], p);
    }
  }

  /** Applies `f` to every element (JavaScript `Array.map`). */
  function Map<A, B>(s: seq<A>, f: A -> B): (r: seq<B>)
    ensures |r| == |s|
    ensures forall i :: 0 <= i < |s| ==> r[i] == f(s[i])
  {
    seq(|s|, i requires 0 <= i < |s| => f(s[i]))
  }

  /** Concatenation regroups freely. */
  lemma AppendAssoc<T>(a: seq<T>, b: seq<T>, c: seq<T>)
    ensures (a + b) + c == a + (b + c)
  {
  }

  /** A prefix one longer is the prefix plus the next element. */
  lemma TakeSnoc<T>(s: seq<T>, i: nat)
    requires i < |s|
    ensures s[..i + 1] == s[..i] + [s[i]]
    ensures s[..|s|] == s
  {
  }

  /** Membership in a concatenation, given what membership in each part means. */
  lemma ConcatMembers<T>(x: T, front: seq<T>, back: seq<T>, inFront: bool, inBack: bool)
    requires x in front <==> inFront
    requires x in back <==> inBack
    ensures x in front + back <==> inFront || inBack
  {
  }

  /** Filtering depends only on the predicate's values on the sequence. */
  lemma {:induction false} FilterCongruent<T(!new)>(s: seq<T>, p: T -> bool, q: T -> bool)
    requires forall x :: x in s ==> p(x) == q(x)
    ensures Filter(s, p) == Filter(s, q)
  {
    if s != [] {
      FilterCongruent(s[1..], p, q);
    }
  }

  /** The elements of a mapped sequence are the images of its elements. */
  lemma MapMembers<A, B>(s: seq<A>, f: A -> B, y: B)
    ensures y in Map(s, f) <==> exists x :: x in s && y == f(x)
  {
    if y in Map(s, f) {
      var k :| 0 <= k < |s| && Map(s, f)[k] == y;
      assert s[k] in s;
    }
    if exists x :: x in s && y == f(x) {
      var x :| x in s && y == f(x);
      var k :| 0 <= k < |s| && s[k] == x;
      assert Map(s, f)[k] == y;
    }
  }

  /** `new Set(xs.map(f))`: the distinct images of the elements. */
  function Image<A(==), B>(s: seq<A>, f: A -> B): set<B> {
    set x | x in s :: f(x)
  }

  /** The set of images of a sequence has at most as many elements as the
      sequence, and is empty only for the empty sequence. */
  lemma {:induction false} ImageCardinality<A(!new), B>(s: seq<A>, f: A -> B)
    ensures |Image(s, f)| <= |s|
    ensures |Image(s, f)| == 0 <==> s == []
  {
    if s != [] {
      assert f(s[0]) in Image(s, f);
    }
    if s != [] {
      ImageCardinality(s[1..], f);
      var rest := set x | x in s[1..] :: f(x);
      var all := set x | x in s :: f(x);
      assert all == rest + {f(s[0])} by {
        forall y | y in all ensures y in rest + {f(s[0])} {
          var x :| x in s && f(x) == y;
          if x != s[0] {
            var i :| 0 <= i < |s| && s[i] == x;
            assert s[1..][i - 1] == x;
          }
        }
      }
      assert |rest + {f(s[0])}| <= |rest| + 1;
    }
  }
}

=== FILE: session_display.dfy ===
/** The formatting and the show/hide decisions of one session's panel. */
module SessionDisplay {
  import opened Options
  import opened Text
  import opened Cassette

  /** `${min}:${sec.toString().padStart(2, '0')}`: two-digit seconds, never
      truncated. The same expression formats track durations in the personnel
      view. */
  function FormatDuration(min: nat, sec: nat): (r: string)
    ensures sec < 10 ==> r == NatToString(min) + ":0" + NatToString(sec)
    ensures sec >= 10 ==> r == NatToString(min) + ":" + NatToString(sec)
  {
    NatToString(min) + ":" + PadStart(NatToString(sec), 2, '0')
  }

  /** The displayed duration reads back as exactly the two fields, also when
      the seconds field is 60 or more. */
  lemma FormatDurationRoundTrip(min: nat, sec: nat)
    ensures ParseClock(FormatDuration(min, sec)) == Some((min, sec))
  {
    var m, ss := NatToString(min), PadStart(NatToString(sec), 2, '0');
    ZeroPadValue(NatToString(sec), 2);
    NatToStringRoundTrip(min);
    NatToStringRoundTrip(sec);
    assert FormatDuration(min, sec) == m + [':'] + ss;
    SplitAfterDigits(m, ss);
  }

  /** `counter.toString().padStart(3, '0')`: the counter's own text, with
      zeros in front of it up to three characters. */
  function FormatCounter(counter: int): (r: string)
    ensures |r| == if |IntToString(counter)| >= 3 then |IntToString(counter)| else 3
    ensures r[|r| - |IntToString(counter)|..] == IntToString(counter)
    ensures forall i :: 0 <= i < |r| - |IntToString(counter)| ==> r[i] == '0'
  {
    PadStart(IntToString(counter), 3, '0')
  }

  /** A non-negative counter reads back from its display; three or more
      digits are left unchanged (0 shows as "000", 1105 as "1105"). */
  lemma FormatCounterRoundTrip(counter: nat)
    ensures AllDigits(FormatCounter(counter))
    ensures DigitsValue(FormatCounter(counter)) == counter
    ensures counter >= 100 ==> FormatCounter(counter) == NatToString(counter)
    ensures 10 <= counter < 100 ==> FormatCounter(counter) == "0" + NatToString(counter)
    ensures counter < 10 ==> FormatCounter(counter) == "00" + NatToString(counter)
  {
    ZeroPadValue(NatToString(counter), 3);
    NatToStringRoundTrip(counter);
    NatToStringWidth(counter);
  }

  /** `padStart` pads the text, sign included: a one-digit negative counter
      gets its zero in front of the minus sign (-5 shows as "0-5"), and a
      longer one is left as it is. */
  lemma FormatCounterNegative(counter: int)
    requires counter < 0
    ensures -9 <= counter ==> FormatCounter(counter) == "0-" + NatToString(-counter)
    ensures counter <= -10 ==> FormatCounter(counter) == IntToString(counter)
  {
    NatToStringWidth(-counter);
  }

  /** JavaScript truthiness of an optional text: present and non-empty. */
  predicate Truthy(s: Option<string>) {
    s.Some? && s.value != ""
  }

  /** The session header is shown iff the code, the date or the location is
      set and non-empty. */
  predicate HasSessionInfo(session: Session) {
    Truthy(session.sessionCode) || Truthy(session.sessionDate) || Truthy(session.location)
  }

  /** The personnel list sits inside the header, so it needs both. */
  predicate ShowsPersonnel(session: Session) {
    HasSessionInfo(session) && |session.sessionPersonnel| > 0
  }

  /** The "Recording Session" heading stands in for a missing code when the
      side has a single session. */
  predicate ShowsRecordingSessionHeading(session: Session, totalSessions: int) {
    HasSessionInfo(session) && !Truthy(session.sessionCode) && totalSessions == 1
  }

  predicate ShowsTrackCredits(track: Track) {
    track.trackSpecificCredits.Some? && |track.trackSpecificCredits.value| > 0
  }

  // ----- The rendered panel

  /** The header: heading (the code, or the stand-in), date, location and
      the personnel buttons (source key, name, role). */
  datatype HeaderView = HeaderView(
    heading: Option<string>,
    date: Option<string>,
    location: Option<string>,
    personnel: seq<Personnel>)

  /** One track row; the credit lines are empty when none are shown. */
  datatype TrackView = TrackView(
    sequence: int,
    title: string,
    duration: string,
    counter: string,
    artist: Option<string>,
    vocalist: Option<string>,
    credits: seq<PersonnelCredit>)

  datatype SessionView = SessionView(header: Option<HeaderView>, tracks: seq<TrackView>)

  /** `{value && <…>}`: the value when it is truthy, nothing otherwise. */
  function Shown(s: Option<string>): (r: Option<string>)
    ensures r.Some? <==> Truthy(s)
    ensures r.Some? ==> r == s
  {
    if Truthy(s) then s else None
  }

  function RenderTrack(track: Track): TrackView {
    TrackView(track.sequence, track.title, FormatDuration(track.durationMin, track.durationSec),
      FormatCounter(track.counterStart), Shown(track.artistDisplay), Shown(track.vocalistDisplay),
      if ShowsTrackCredits(track) then track.trackSpecificCredits.value else [])
  }

  function RenderTracks(tracks: seq<Track>): (r: seq<TrackView>)
    ensures |r| == |tracks|
    ensures forall i :: 0 <= i < |tracks| ==> r[i] == RenderTrack(tracks[i])
  {
    if tracks == [] then [] else [RenderTrack(tracks[0])] + RenderTracks(tracks[1..])
  }

  /** The panel of session `session` on a side of `totalSessions` sessions. */
  function RenderSession(session: Session, totalSessions: int): (v: SessionView)
    ensures |v.tracks| == |session.tracks|
  {
    var header :=
      if !HasSessionInfo(session) then None
      else Some(HeaderView(
        if Truthy(session.sessionCode) then session.sessionCode
        else if totalSessions == 1 then Some("Recording Session")
        else None,
        Shown(session.sessionDate),
        Shown(session.location),
        if |session.sessionPersonnel| > 0 then session.sessionPersonnel else []));
    SessionView(header, RenderTracks(session.tracks))
  }

  /** The header appears exactly when the code, the date or the location is
      set and non-empty; inside it the date and location lines appear exactly
      when their values are truthy. */
  lemma HeaderShownIffInfo(session: Session, totalSessions: int)
    ensures RenderSession(session, totalSessions).header.Some? <==>
      Truthy(session.sessionCode) || Truthy(session.sessionDate) || Truthy(session.location)
    ensures RenderSession(session, totalSessions).header.Some? ==>
      && (RenderSession(session, totalSessions).header.value.date.Some? <==> Truthy(session.sessionDate))
      && (RenderSession(session, totalSessions).header.value.location.Some? <==> Truthy(session.location))
  {
  }

  /** The personnel list is shown exactly when `ShowsPersonnel` holds, and then
      lists the session's personnel in order; a session with personnel but no
      code, date or location shows none of them. */
  lemma PersonnelShownIff(session: Session, totalSessions: int)
    ensures var v := RenderSession(session, totalSessions);
      (v.header.Some? && v.header.value.personnel != []) <==> ShowsPersonnel(session)
    ensures var v := RenderSession(session, totalSessions);
      ShowsPersonnel(session) ==> v.header.value.personnel == session.sessionPersonnel
    ensures |session.sessionPersonnel| > 0 && !HasSessionInfo(session) ==>
      RenderSession(session, totalSessions).header.None?
  {
  }

  /** The heading is the non-empty session code when there is one; otherwise
      "Recording Session" on a single-session side and no heading at all on a
      side with several sessions. */
  lemma HeadingCases(session: Session, totalSessions: int)
    requires HasSessionInfo(session)
    ensures var h := RenderSession(session, totalSessions).header.value.heading;
      && (Truthy(session.sessionCode) ==> h == session.sessionCode && h.value != "")
      && (h == Some("Recording Session") && !Truthy(session.sessionCode) ==>
            ShowsRecordingSessionHeading(session, totalSessions))
      && (h.None? <==> !Truthy(session.sessionCode) && totalSessions != 1)
  {
  }

  /** `row` reads back to `track`: its duration text parses to the track's
      own minutes and seconds, and for a non-negative counter its counter text
      is all digits and reads as the counter. */
  predicate ReadsBack(track: Track, row: TrackView) {
    && ParseClock(row.duration) == Some((track.durationMin, track.durationSec))
    && (track.counterStart >= 0 ==> AllDigits(row.counter) && DigitsValue(row.counter) == track.counterStart)
  }

  lemma TrackRowReadsBack(track: Track)
    ensures ReadsBack(track, RenderTrack(track))
  {
    FormatDurationRoundTrip(track.durationMin, track.durationSec);
    if track.counterStart >= 0 {
      FormatCounterRoundTrip(track.counterStart);
    }
  }

  /** Every track row of a session panel reads back to its track. */
  lemma TrackRowsReadBack(session: Session, totalSessions: int)
    ensures forall i :: 0 <= i < |session.tracks| ==>
      ReadsBack(session.tracks[i], RenderSession(session, totalSessions).tracks[i])
  {
    var v := RenderSession(session, totalSessions);
    forall i | 0 <= i < |session.tracks|
      ensures ReadsBack(session.tracks[i], v.tracks[i])
    {
      assert v.tracks[i] == RenderTrack(session.tracks[i]);
      TrackRowReadsBack(session.tracks[i]);
    }
  }

  /** Track credit lines appear exactly when the credits are present and
      non-empty, and then list them all in order. */
  lemma TrackCreditsShownIff(track: Track)
    ensures RenderTrack(track).credits != [] <==> ShowsTrackCredits(track)
    ensures ShowsTrackCredits(track) ==> RenderTrack(track).credits == track.trackSpecificCredits.value
  {
  }
}

=== FILE: sorting.dfy ===
/** The orderings the SQL queries sort by and a sort that realises them.

    SQLite compares TEXT with its BINARY collation (byte-wise on UTF-8, which
    agrees with comparing code points), places NULL before every value in an
    ascending ORDER BY, and leaves rows with equal keys in no promised order.
    The model sorts with a stable insertion sort, but every property of a query
    is stated only as "sorted by the key, and the same multiset of rows as the
    filtered table", which holds whatever order SQLite gives ties. */
module Sorting {
  import opened Options
  import opened Seqs

  /** Lexicographic order on strings, compared character by character. */
  predicate StrLe(a: string, b: string)
    decreases |a|
  {
    |a| == 0 || (|b| > 0 && (a[0] < b[0] || (a[0] == b[0] && StrLe(a[1..], b[1..]))))
  }

  lemma {:induction false} StrLeTotal(a: string, b: string)
    ensures StrLe(a, b) || StrLe(b, a)
    decreases |a|
  {
    if |a| > 0 && |b| > 0 && a[0] == b[0] {
      StrLeTotal(a[1..], b[1..]);
    }
  }

  lemma {:induction false} StrLeTransitive(a: string, b: string, c: string)
    requires StrLe(a, b) && StrLe(b, c)
    ensures StrLe(a, c)
    decreases |a|
  {
    if |a| > 0 && a[0] == b[0] && b[0] == c[0] {
      StrLeTransitive(a[1..], b[1..], c[1..]);
    }
  }

  lemma {:induction false} StrLeAntisymmetric(a: string, b: string)
    requires StrLe(a, b) && StrLe(b, a)
    ensures a == b
    decreases |a|
  {
    if |a| > 0 {
      StrLeAntisymmetric(a[1..], b[1..]);
      assert a == [a[0]] + a[1..] && b == [b[0]] + b[1..];
    }
  }

  /** Ascending order on a nullable text column: NULL first. */
  predicate OptStrLe(a: Option<string>, b: Option<string>) {
    a.None? || (b.Some? && StrLe(a.value, b.value))
  }

  /** Ascending order on a nullable integer column: NULL first. */
  predicate OptIntLe(a: Option<int>, b: Option<int>) {
    a.None? || (b.Some? && a.value <= b.value)
  }

  /** A total preorder: what an ORDER BY key induces on rows. */
  ghost predicate TotalPreorder<T(!new)>(le: (T, T) -> bool) {
    && (forall a, b :: le(a, b) || le(b, a))
    && (forall a, b, c :: le(a, b) && le(b, c) ==> le(a, c))
  }

  predicate SortedBy<T>(s: seq<T>, le: (T, T) -> bool) {
    forall i, j :: 0 <= i < j < |s| ==> le(s[i], s[j])
  }

  /** Inserts `x` before the first element it is `le` to. */
  function Insert<T(!new)>(x: T, s: seq<T>, le: (T, T) -> bool): (r: seq<T>)
    ensures multiset(r) == multiset(s) + multiset{x}
    ensures forall y :: y in r <==> y == x || y in s
  {
    if s == [] then [x]
    else if le(x, s[0]) then [x] + s
    else
      assert s == [s[0]] + s[1..];
      [s[0]] + Insert(x, s[1..], le)
  }

  /** Stable insertion sort. */
  function SortBy<T(!new)>(s: seq<T>, le: (T, T) -> bool): (r: seq<T>)
    ensures multiset(r) == multiset(s)
    ensures |r| == |s|
  {
    if s == [] then []
    else
      assert s == [s[0]] + s[1..];
      Insert(s[0], SortBy(s[1..], le), le)
  }

  lemma {:induction false} InsertSorted<T(!new)>(x: T, s: seq<T>, le: (T, T) -> bool)
    requires TotalPreorder(le) && SortedBy(s, le)
    ensures SortedBy(Insert(x, s, le), le)
  {
    if s == [] {
    } else if le(x, s[0]) {
      var r := [x] + s;
      forall i, j | 0 <= i < j < |r| ensures le(r[i], r[j]) {
        if i == 0 {
          assert le(s[0], s[j - 1]) || j == 1;
        }
      }
    } else {
      var tail := s[1..];
      assert SortedBy(tail, le);
      InsertSorted(x, tail, le);
      var ins := Insert(x, tail, le);
      var r := [s[0]] + ins;
      assert le(s[0], x);
      forall k | 0 <= k < |ins| ensures le(s[0], ins[k]) {
        assert ins[k] in ins;
        if ins[k] != x {
          var j :| 0 <= j < |tail| && tail[j] == ins[k];
          assert s[j + 1] == ins[k];
        }
      }
      forall i, j | 0 <= i < j < |r| ensures le(r[i], r[j]) {
        if i == 0 {
          assert r[j] == ins[j - 1];
        } else {
          assert r[i] == ins[i - 1] && r[j] == ins[j - 1];
        }
      }
    }
  }

  /** The sort produces a sorted permutation of its input. */
  lemma {:induction false} SortBySorted<T(!new)>(s: seq<T>, le: (T, T) -> bool)
    requires TotalPreorder(le)
    ensures SortedBy(SortBy(s, le), le)
  {
    if s != [] {
      SortBySorted(s[1..], le);
      InsertSorted(s[0], SortBy(s[1..], le), le);
    }
  }

  /** Sorting by a total preorder, stated as the query contract. */
  function Sorted<T(!new)>(s: seq<T>, le: (T, T) -> bool): (r: seq<T>)
    requires TotalPreorder(le)
    ensures SortedBy(r, le)
    ensures multiset(r) == multiset(s)
    ensures forall x :: x in r <==> x in s
  {
    SortBySorted(s, le);
    var r := SortBy(s, le);
    assert forall x :: x in r <==> x in multiset(r);
    assert forall x :: x in s <==> x in multiset(s);
    r
  }

  lemma TailMultiset<T>(a: seq<T>, b: seq<T>)
    requires |a| > 0 && |b| > 0 && a[0] == b[0]
    requires multiset(a) == multiset(b)
    ensures multiset(a[1..]) == multiset(b[1..])
  {
    assert a == [a[0]] + a[1..];
    assert b == [b[0]] + b[1..];
    assert multiset(a) == multiset{a[0]} + multiset(a[1..]);
    assert multiset(b) == multiset{b[0]} + multiset(b[1..]);
    forall x ensures multiset(a[1..])[x] == multiset(b[1..])[x] {
      assert multiset(a)[x] == multiset{a[0]}[x] + multiset(a[1..])[x];
      assert multiset(b)[x] == multiset{b[0]}[x] + multiset(b[1..])[x];
    }
  }

  /** Two sorted permutations start with the same element when the key tells
      apart all the rows. */
  lemma SortedHeadsAgree<T(!new)>(a: seq<T>, b: seq<T>, le: (T, T) -> bool)
    requires forall x :: le(x, x)
    requires SortedBy(a, le) && SortedBy(b, le)
    requires |a| > 0 && multiset(a) == multiset(b)
    requires forall x, y :: x in a && y in a && le(x, y) && le(y, x) ==> x == y
    ensures |b| > 0 && a[0] == b[0]
  {
    assert |b| == |multiset(b)| == |a|;
    assert a[0] in multiset(b) && b[0] in multiset(a);
    var i :| 0 <= i < |b| && b[i] == a[0];
    var j :| 0 <= j < |a| && a[j] == b[0];
    assert le(b[0], a[0]) by { if i > 0 { assert le(b[0], b[i]); } }
    assert le(a[0], b[0]) by { if j > 0 { assert le(a[0], a[j]); } }
  }

  /** When the key tells apart all the rows, there is only one sorted
      permutation: the query result does not depend on how ties are broken. */
  lemma {:induction false} SortedPermutationUnique<T(!new)>(a: seq<T>, b: seq<T>, le: (T, T) -> bool)
    requires forall x :: le(x, x)
    requires SortedBy(a, le) && SortedBy(b, le)
    requires multiset(a) == multiset(b)
    requires forall x, y :: x in a && y in a && le(x, y) && le(y, x) ==> x == y
    ensures a == b
  {
    if a == [] {
      assert |b| == |multiset(b)| == 0;
    } else {
      SortedHeadsAgree(a, b, le);
      TailMultiset(a, b);
      var a', b' := a[1..], b[1..];
      assert SortedBy(a', le) && SortedBy(b', le);
      forall x, y | x in a' && y in a' && le(x, y) && le(y, x) ensures x == y {
        assert x in a && y in a;
      }
      SortedPermutationUnique(a', b', le);
      assert a == [a[0]] + a' && b == [b[0]] + b';
    }
  }

  /** Filtering keeps a sorted sequence sorted. */
  lemma {:induction false} FilterSorted<T(!new)>(s: seq<T>, p: T -> bool, le: (T, T) -> bool)
    requires SortedBy(s, le)
    ensures SortedBy(Filter(s, p), le)
  {
    if s != [] {
      var tail := s[1..];
      assert SortedBy(tail, le);
      FilterSorted(tail, p, le);
      var ft := Filter(tail, p);
      if p(s[0]) {
        var r := [s[0]] + ft;
        forall i, j | 0 <= i < j < |r| ensures le(r[i], r[j]) {
          if i == 0 {
            assert r[j] in ft;
            var k :| 0 <= k < |tail| && tail[k] == r[j];
            assert s[k + 1] == r[j];
          } else {
            assert r[i] == ft[i - 1] && r[j] == ft[j - 1];
          }
        }
      }
    }
  }
}

=== FILE: text.dfy ===
/** Number-to-text conversion and padding as JavaScript performs them on
    integral numbers (`n.toString()`, `s.padStart(width, fill)`,
    `s.toLowerCase()`), together with the decimal reading that inverts them. */
module Text {
  import opened Options

  predicate IsDigit(c: char) {
    '0' <= c <= '9'
  }

  predicate AllDigits(s: string) {
    forall i :: 0 <= i < |s| ==> IsDigit(s[i])
  }

  function DigitChar(d: nat): (c: char)
    requires d < 10
    ensures IsDigit(c) && DigitValue(c) == d
  {
    (('0' as int) + d) as char
  }

  function DigitValue(c: char): nat
    requires IsDigit(c)
  {
    (c as int) - ('0' as int)
  }

  /** `n.toString()` for a non-negative integer: its decimal digits, most
      significant first, with no leading zero. */
  function NatToString(n: nat): (s: string)
    ensures |s| >= 1 && AllDigits(s)
    ensures |s| > 1 ==> s[0] != '0'
    ensures n < 10 <==> |s| == 1
    decreases n
  {
    if n < 10 then [DigitChar(n)]
    else NatToString(n / 10) + [DigitChar(n % 10)]
  }

  /** `n.toString()` for any integer: a minus sign before the digits of a
      negative number. */
  function IntToString(n: int): (s: string)
    ensures n >= 0 ==> s == NatToString(n)
    ensures n < 0 ==> |s| > 1 && s[0] == '-' && s[1..] == NatToString(-n)
  {
    if n < 0 then "-" + NatToString(-n) else NatToString(n)
  }

  /** The number a string of decimal digits denotes. */
  function DigitsValue(s: string): nat
    requires AllDigits(s)
  {
    if |s| == 0 then 0
    else 10 * DigitsValue(s[..|s| - 1]) + DigitValue(s[|s| - 1])
  }

  function Pow10(k: nat): nat {
    if k == 0 then 1 else 10 * Pow10(k - 1)
  }

  /** Two digits below 100, three or more from 100 on. */
  lemma NatToStringWidth(n: nat)
    ensures 10 <= n < 100 ==> |NatToString(n)| == 2
    ensures n >= 100 ==> |NatToString(n)| >= 3
  {
    if n >= 10 {
      assert |NatToString(n)| == |NatToString(n / 10)| + 1;
    }
  }

  /** Reading back the decimal text of a number gives the number. */
  lemma {:induction false} NatToStringRoundTrip(n: nat)
    ensures DigitsValue(NatToString(n)) == n
    decreases n
  {
    if n >= 10 {
      var s := NatToString(n);
      assert s[..|s| - 1] == NatToString(n / 10);
      NatToStringRoundTrip(n / 10);
    }
  }

  /** Shifting a two-part number by one digit. */
  lemma Regroup(x: int, p: int, y: int, d: int)
    ensures 10 * (x * p + y) + d == x * (10 * p) + (10 * y + d)
  {
  }

  /** The value of a digit string splits at any point. */
  lemma {:induction false} DigitsValueConcat(a: string, b: string)
    requires AllDigits(a) && AllDigits(b)
    ensures AllDigits(a + b)
    ensures DigitsValue(a + b) == DigitsValue(a) * Pow10(|b|) + DigitsValue(b)
    decreases |b|
  {
    if |b| > 0 {
      var b' := b[..|b| - 1];
      assert (a + b)[..|a + b| - 1] == a + b';
      assert (a + b)[|a + b| - 1] == b[|b| - 1];
      DigitsValueConcat(a, b');
      var d := DigitValue(b[|b| - 1]);
      assert DigitsValue(a + b) == 10 * DigitsValue(a + b') + d;
      assert DigitsValue(b) == 10 * DigitsValue(b') + d;
      Regroup(DigitsValue(a), Pow10(|b'|), DigitsValue(b'), d);
    } else {
      assert a + b == a;
    }
  }

  function Repeat(c: char, k: nat): (r: string)
    ensures |r| == k && forall i :: 0 <= i < k ==> r[i] == c
  {
    if k == 0 then [] else [c] + Repeat(c, k - 1)
  }

  lemma {:induction false} ZerosValue(k: nat)
    ensures AllDigits(Repeat('0', k)) && DigitsValue(Repeat('0', k)) == 0
  {
    if k > 0 {
      var z := Repeat('0', k);
      assert z[..k - 1] == Repeat('0', k - 1);
      ZerosValue(k - 1);
    }
  }

  /** `s.padStart(width, fill)`: `fill` repeated on the left up to `width`;
      a string already that long is returned unchanged, never truncated. */
  function PadStart(s: string, width: nat, fill: char): (r: string)
    ensures |r| == if |s| >= width then |s| else width
    ensures r[|r| - |s|..] == s
    ensures forall i :: 0 <= i < |r| - |s| ==> r[i] == fill
  {
    if |s| >= width then s else Repeat(fill, width - |s|) + s
  }

  /** Left padding with zeros keeps the value of a digit string. */
  lemma ZeroPadValue(s: string, width: nat)
    requires AllDigits(s)
    ensures AllDigits(PadStart(s, width, '0'))
    ensures DigitsValue(PadStart(s, width, '0')) == DigitsValue(s)
  {
    if |s| < width {
      ZerosValue(width - |s|);
      DigitsValueConcat(Repeat('0', width - |s|), s);
    }
  }

  /** `s.toLowerCase()` on the ASCII letters. */
  function ToLower(s: string): (r: string)
    ensures |r| == |s|
    ensures forall i :: 0 <= i < |s| ==>
      r[i] == if 'A' <= s[i] <= 'Z' then (s[i] as int + 32) as char else s[i]
  {
    if s == [] then []
    else [if 'A' <= s[0] <= 'Z' then (s[0] as int + 32) as char else s[0]] + ToLower(s[1..])
  }

  /** Splits at the first occurrence of `sep`. */
  function SplitAt(s: string, sep: char): (r: Option<(string, string)>)
    ensures r.Some? ==> r.value.0 + [sep] + r.value.1 == s && sep !in r.value.0
    ensures r.None? <==> sep !in s
  {
    if s == [] then None
    else if s[0] == sep then
      assert s == [] + [sep] + s[1..];
      Some(([], s[1..]))
    else match SplitAt(s[1..], sep)
      case None => None
      case Some((before, after)) =>
        assert s == [s[0]] + s[1..];
        Some(([s[0]] + before, after))
  }

  /** Reads a "minutes:seconds" display back into its two numbers. */
  function ParseClock(s: string): Option<(nat, nat)> {
    match SplitAt(s, ':')
    case None => None
    case Some((m, ss)) =>
      if |m| > 0 && |ss| > 0 && AllDigits(m) && AllDigits(ss)
      then Some((DigitsValue(m), DigitsValue(ss)))
      else None
  }

  /** A digit string followed by a separator splits exactly there. */
  lemma {:induction false} SplitAfterDigits(m: string, rest: string)
    requires AllDigits(m)
    ensures SplitAt(m + [':'] + rest, ':') == Some((m, rest))
  {
    var s := m + [':'] + rest;
    if m == [] {
      assert s == [':'] + rest;
    } else {
      assert IsDigit(m[0]);
      assert s[0] == m[0] && s[1..] == m[1..] + [':'] + rest;
      SplitAfterDigits(m[1..], rest);
      assert [m[0]] + m[1..] == m;
    }
  }
}
